=== FILE: README.md ===
# Kredika domain entities in Dafny

This project models the business rules of the Kredika credit-sale platform's
domain entities: the JPA entity classes under
`src/main/java/sn/kredika_app/domain/model/`. It covers payments and their
schedules, instalment plans, credit profiles and credit settings, the product
catalogue (products, images, reviews, categories, reference code lists),
carts, orders and order lines, wishlists, users, their addresses, sessions
and notifications, and the soft-delete flag every entity inherits.

Each entity keeps the form its Java class has:

- An entity whose methods assign its fields in place is a Dafny `class`. Its
  methods name the fields they change in `modifies this`field` and state the
  whole new state. These are `BaseModel.Base`, `PaymentTransaction.Transaction`,
  `PaymentSchedule.Schedule`, `Wishlist.Entry`, `Product.Product`,
  `Order.Order`, `OrderItem.Item`, `User.User`, `UserAddress.Address`,
  `UserSession.Session`, `Notification.Notification` and
  `ProductReview.Review`.
- An entity whose rules only compute is a `datatype` with functions over it:
  `InstallmentPlan.Plan`, `CreditProfile.Profile`, `CreditSettings.Settings`,
  `Cart.Cart`, `Category.Category`, `CodeList.Code` and `ProductImage.Image`.

The shared modules are these:

- `JavaLang` holds the Java semantics the rules rely on:
  - nullable references (`Option`) and thrown exceptions (`Result`,
    `Completion`);
  - `String.trim`, `isBlank`, `toLowerCase` and `toUpperCase` on ASCII,
    `contains`, `split` and `String.format` with `%s`;
  - the `int` wrap-around.
- `Decimal` holds `BigDecimal` at a fixed scale, kept as unscaled integers:
  - money has scale 2 (`Cents`) and rates have scale 4 (`Rate`, 1 is 10000);
  - `divide(…, HALF_UP)` is `DivHalfUp`.
- `Clock` holds `LocalDateTime` as whole seconds and `LocalDate` as
  (year, month, day), including `Duration.between(…).toMinutes()` and `Period`.

Every method that reads the clock (`LocalDateTime.now()`, `LocalDate.now()`)
takes "now" or "today" as a parameter instead. A field the Java code may hold
as null is an `Option`, and a `NullPointerException` from dereferencing or
unboxing it is an explicit `Thrown(NullPointer)` or `Abrupt(NullPointer)`
outcome, as is every other exception the code can raise. The fields listed
under "## Left out" are the exceptions: they are modelled as never null.

Two rules are modelled as written and carry a defect; see "## Findings".

## Model

| member | source | states |
|---|---|---|
| BaseModel.Settled | src/main/java/sn/kredika_app/domain/model/BaseModel.java:62-67 | prePersist leaves a non-null soft-delete flag as it is and makes a null flag non-null; the entity counts as deleted afterwards exactly when the flag was true |
| BaseModel.SettledIdempotent | src/main/java/sn/kredika_app/domain/model/BaseModel.java:62-67 | persisting twice settles the flag exactly as persisting once |
| BaseModel.Base.constructor | src/main/java/sn/kredika_app/domain/model/BaseModel.java:35 | a new entity is not deleted |
| BaseModel.Base.PreRemove | src/main/java/sn/kredika_app/domain/model/BaseModel.java:57-60 | removal is a soft delete: the flag becomes true |
| BaseModel.Base.PrePersist | src/main/java/sn/kredika_app/domain/model/BaseModel.java:62-67 | the flag after persisting is the settled flag |
| PaymentTransaction.Transaction.constructor | src/main/java/sn/kredika_app/domain/model/PaymentTransactionModel.java:101-131 | a new transaction is PENDING with a zero refund, so it is not refunded; no gateway data, processing time or failure reason is recorded |
| PaymentTransaction.Transaction.IsRefunded | src/main/java/sn/kredika_app/domain/model/PaymentTransactionModel.java:209-211 | refunded exactly when at least one cent was given back, so never with a zero refund |
| PaymentTransaction.Transaction.MarkAsSuccessful | src/main/java/sn/kredika_app/domain/model/PaymentTransactionModel.java:169-175 | from any status: SUCCESS, the external id and gateway response recorded, processed now, the failure reason cleared; amounts and refund untouched |
| PaymentTransaction.Transaction.MarkAsFailed | src/main/java/sn/kredika_app/domain/model/PaymentTransactionModel.java:182-186 | from any status: FAILED, processed now, with the given reason; gateway data and refund untouched |
| PaymentTransaction.Transaction.ProcessRefund | src/main/java/sn/kredika_app/domain/model/PaymentTransactionModel.java:193-202 | a null refund throws NullPointerException; otherwise succeeds exactly when 0 < refund <= amount, and then becomes REFUNDED with that refund at now, so the transaction is refunded; otherwise IllegalArgumentException; a failure changes nothing |
| PaymentSchedule.Schedule.constructor | src/main/java/sn/kredika_app/domain/model/PaymentScheduleModel.java:65-88 | nothing paid and no penalty, so the whole amount remains and a positive amount is not fully paid |
| PaymentSchedule.Schedule.RemainingAmount | src/main/java/sn/kredika_app/domain/model/PaymentScheduleModel.java:127-129 | what is paid plus what remains is the amount due |
| PaymentSchedule.Schedule.IsFullyPaid | src/main/java/sn/kredika_app/domain/model/PaymentScheduleModel.java:136-138 | fully paid exactly when nothing remains |
| PaymentSchedule.Schedule.IsOverdue | src/main/java/sn/kredika_app/domain/model/PaymentScheduleModel.java:145-147 | overdue exactly when something remains and the due date is strictly before today |
| PaymentSchedule.Schedule.MarkAsPaid | src/main/java/sn/kredika_app/domain/model/PaymentScheduleModel.java:154-157 | a null payment throws NullPointerException and changes nothing; otherwise the payment is added to what was paid, so the remainder drops by it; paying at least the remainder makes the schedule fully paid and never overdue, whatever the day; only the paid amount and payment time change |
| InstallmentPlan.RemainingAtStart | src/main/java/sn/kredika_app/domain/model/InstallmentPlanModel.java:221-225 | with no instalment paid the whole total remains |
| InstallmentPlan.RemainingDecreases | src/main/java/sn/kredika_app/domain/model/InstallmentPlanModel.java:221-225 | each further paid instalment lowers the remainder by exactly its amount, strictly |
| InstallmentPlan.LateOnlyWhenUnpaid | src/main/java/sn/kredika_app/domain/model/InstallmentPlanModel.java:232-243 | a late plan is not fully paid, a fully paid plan is never late, and a late plan stays late on every later day |
| InstallmentPlan.RemainingAmount | src/main/java/sn/kredika_app/domain/model/InstallmentPlanModel.java:221-225 | throws NullPointerException exactly for a null count of paid instalments; otherwise what remains plus what the paid instalments cover is the total |
| InstallmentPlan.IsFullyPaid | src/main/java/sn/kredika_app/domain/model/InstallmentPlanModel.java:232-234 | throws NullPointerException exactly when either instalment count is null; otherwise fully paid exactly when the paid count reaches the total count |
| InstallmentPlan.IsLate | src/main/java/sn/kredika_app/domain/model/InstallmentPlanModel.java:241-243 | throws when the paid test throws, or for a null end date on a plan not fully paid; late exactly when not fully paid and today is after the end date |
| InstallmentPlan.FullyPaidIffNothingRemains | src/main/java/sn/kredika_app/domain/model/InstallmentPlanModel.java:221-234 | when the total is exactly the instalments, the plan is fully paid exactly when nothing remains to pay |
| InstallmentPlan.TotalWithinTwicePrincipal | src/main/java/sn/kredika_app/domain/model/InstallmentPlanModel.java:84-149 | with the documented derivation of commission and total and the declared rate bound, the total lies between the principal and twice the principal |
| CreditProfile.NewProfile | src/main/java/sn/kredika_app/domain/model/CreditProfileModel.java:85 | a new profile has no debt and no default, so it is not in default and its ratio is 0 |
| CreditProfile.UtilizationRatio | src/main/java/sn/kredika_app/domain/model/CreditProfileModel.java:111-116 | null exactly for a zero limit; otherwise debt / limit rounded half up to four decimals |
| CreditProfile.IsCreditExhausted | src/main/java/sn/kredika_app/domain/model/CreditProfileModel.java:123-125 | exhausted when no credit is available; within the declared bounds exactly when the available credit is 0 |
| CreditProfile.IsInDefault | src/main/java/sn/kredika_app/domain/model/CreditProfileModel.java:132-134 | in default exactly when the count is recorded and at least three, so never for a null count and not at two |
| CreditProfile.RatioAtMostOne | src/main/java/sn/kredika_app/domain/model/CreditProfileModel.java:111-125 | a debt within the limit gives a ratio between 0 and 1 |
| CreditProfile.RatioOneOverLimit | src/main/java/sn/kredika_app/domain/model/CreditProfileModel.java:111-116 | the converse fails: a debt just over the limit rounds to a ratio of exactly 1 |
| CreditProfile.RatioAtLeastOne | src/main/java/sn/kredika_app/domain/model/CreditProfileModel.java:111-125 | a debt of at least the limit gives a ratio of at least 1 |
| CreditSettings.IsAmountValid | src/main/java/sn/kredika_app/domain/model/CreditSettingsModel.java:86-97 | a null amount is invalid; otherwise each bound that is set must hold, inclusive |
| CreditSettings.AmountValidRange | src/main/java/sn/kredika_app/domain/model/CreditSettingsModel.java:86-97 | with both bounds the valid amounts are exactly the closed range (none when min > max); with no bound every amount is valid |
| CreditSettings.CalculateTotalAmount | src/main/java/sn/kredika_app/domain/model/CreditSettingsModel.java:105-108 | null exactly for a null principal; otherwise the principal times (1 + commission rate), exactly at scale 6 |
| CreditSettings.TotalAboveAndAtMostTwice | src/main/java/sn/kredika_app/domain/model/CreditSettingsModel.java:105-108 | with a rate in (0, 1] a positive principal yields a total above the principal and at most twice it |
| Wishlist.Raised | src/main/java/sn/kredika_app/domain/model/WishlistModel.java:91-95 | the priority rises by one below 5 and stays at or above it |
| Wishlist.Lowered | src/main/java/sn/kredika_app/domain/model/WishlistModel.java:100-104 | the priority drops by one above 1 and stays at or below it |
| Wishlist.CleanNotes | src/main/java/sn/kredika_app/domain/model/WishlistModel.java:163-165 | null or blank notes are stored as null; otherwise the trimmed notes, which trimming leaves unchanged |
| Wishlist.ChangesStayInRange | src/main/java/sn/kredika_app/domain/model/WishlistModel.java:68-104 | any sequence of raises and lowers from a priority in 1..5 stays in 1..5 |
| Wishlist.RaiseLowerRoundTrip | src/main/java/sn/kredika_app/domain/model/WishlistModel.java:91-104 | lowering undoes raising below the top, and raising undoes lowering above the bottom |
| Wishlist.CleanNotesContent | src/main/java/sn/kredika_app/domain/model/WishlistModel.java:120-122 | the entry has notes after an update exactly when the new notes are not blank; cleaning twice is cleaning once |
| Wishlist.Entry.constructor | src/main/java/sn/kredika_app/domain/model/WishlistModel.java:68 | a new entry has priority 1 and no notes, so it is neither high priority nor annotated |
| Wishlist.Entry.IsHighPriority | src/main/java/sn/kredika_app/domain/model/WishlistModel.java:111-113 | throws NullPointerException exactly for a null priority; otherwise high exactly at 4 or more, i.e. the top two priorities of the range, and raising keeps it high |
| Wishlist.Entry.HasNotes | src/main/java/sn/kredika_app/domain/model/WishlistModel.java:120-122 | notes present with some character beyond the trimmable ones |
| Wishlist.Entry.IsForProduct | src/main/java/sn/kredika_app/domain/model/WishlistModel.java:144-146 | false for a null id; otherwise true exactly for the entry's product |
| Wishlist.Entry.IsOwnedBy | src/main/java/sn/kredika_app/domain/model/WishlistModel.java:154-156 | false for a null id; otherwise true exactly for the entry's user |
| Wishlist.Entry.IncreasePriority | src/main/java/sn/kredika_app/domain/model/WishlistModel.java:91-95 | a null priority throws NullPointerException and stays null; otherwise the priority becomes the raised one and stays in range; nothing else changes |
| Wishlist.Entry.DecreasePriority | src/main/java/sn/kredika_app/domain/model/WishlistModel.java:100-104 | a null priority throws NullPointerException and stays null; otherwise the priority becomes the lowered one and stays in range; nothing else changes |
| Wishlist.Entry.UpdateNotes | src/main/java/sn/kredika_app/domain/model/WishlistModel.java:163-165 | the notes become the cleaned notes; the entry has notes exactly when the new ones are not blank |
| ProductImage.NewImage | src/main/java/sn/kredika_app/domain/model/ProductImageModel.java:63-70 | a new image is at position 0, not primary, and falls back to the generic alternative text |
| ProductImage.IsSupportedFormat | src/main/java/sn/kredika_app/domain/model/ProductImageModel.java:86-92 | a null URL is not supported, and a supported URL is at least as long as an extension |
| ProductImage.SupportedFormatIgnoresCase | src/main/java/sn/kredika_app/domain/model/ProductImageModel.java:86-92 | support depends on the URL only up to letter case, and means ending in one of the lower-cased extensions |
| ProductImage.UpperCaseExtensionSupported | src/main/java/sn/kredika_app/domain/model/ProductImageModel.java:86-92 | an upper-case ".JPG" URL is supported |
| ProductImage.EffectiveAltText | src/main/java/sn/kredika_app/domain/model/ProductImageModel.java:99-105 | a non-blank alternative text is kept; otherwise "Image du produit " and the product name, or "Image de produit" without a product; the result is never blank |
| Product.FirstPrimary | src/main/java/sn/kredika_app/domain/model/ProductModel.java:394-400 | the index of the first image flagged primary, or the length when none is |
| Product.MainImageUrl | src/main/java/sn/kredika_app/domain/model/ProductModel.java:394-400 | a null image list throws NullPointerException; null when no image is primary; otherwise the URL of the first primary image |
| Product.InsertByPosition | src/main/java/sn/kredika_app/domain/model/ProductModel.java:407-412 | inserting an image into an ordered list adds exactly that image |
| Product.InsertKeepsSorted | src/main/java/sn/kredika_app/domain/model/ProductModel.java:407-412 | insertion keeps the list ordered by position |
| Product.SortByPosition | src/main/java/sn/kredika_app/domain/model/ProductModel.java:407-412 | the images reordered by non-decreasing position, a permutation of the input |
| Product.Urls | src/main/java/sn/kredika_app/domain/model/ProductModel.java:407-412 | the URL of each image, in order |
| Product.AllImageUrls | src/main/java/sn/kredika_app/domain/model/ProductModel.java:407-412 | a null image list throws, and so do two or more images one of which has no position; otherwise one URL per image, the URLs of the images in non-decreasing position order |
| Product.NewReviewKeepsMean | src/main/java/sn/kredika_app/domain/model/ProductModel.java:420-435 | when the stored rating is the average of the counted ratings, a new review makes it the average of those and the new one, half up to two decimals, and counts it |
| Product.MeanWithinStars | src/main/java/sn/kredika_app/domain/model/ProductModel.java:420-435 | an average of ratings in 1.00..5.00 stays in 1.00..5.00 |
| Product.EditAddsInsteadOfReplacing | src/main/java/sn/kredika_app/domain/model/ProductModel.java:420-435 | as written, editing the only 4.00 review to 2.00 stores 6.00 instead of 2.00 |
| Product.EditWithoutReviewsDividesByZero | src/main/java/sn/kredika_app/domain/model/ProductModel.java:420-435 | as written, editing with a review count of 0 throws ArithmeticException |
| Product.RatingUpdate | src/main/java/sn/kredika_app/domain/model/ProductModel.java:420-435 | a null rating changes nothing; a null count throws NullPointerException; a failure keeps the rating; a success counts a new review and not an edit; a new review on a non-negative count never fails |
| Product.RatingEdit | src/main/java/sn/kredika_app/domain/model/ProductModel.java:420-435 | the corrected edit: the count never changes, it fails only with NullPointerException for a null count and then changes nothing, and editing the only review to a value stores that value |
| Product.EditKeepsMean | src/main/java/sn/kredika_app/domain/model/ProductModel.java:420-435 | the intended edit replaces one rating, leaving the stored rating the average of the updated ratings with the count unchanged |
| Product.DiscountWithinPercent | src/main/java/sn/kredika_app/domain/model/ProductModel.java:382-387 | a compare price above a positive price gives a discount between 0 and 100 percent |
| Product.Product.constructor | src/main/java/sn/kredika_app/domain/model/ProductModel.java:112-304 | the declared defaults: zero stock, counters at 0, no rating, no tags, an empty image list, so the product is out of stock |
| Product.Product.IsInStock | src/main/java/sn/kredika_app/domain/model/ProductModel.java:355-357 | in stock exactly when the stock, a null one read as 0, is positive |
| Product.Product.IsLowStock | src/main/java/sn/kredika_app/domain/model/ProductModel.java:364-366 | low exactly when both stock and minimum are known and the stock is at or below the minimum |
| Product.Product.HasDiscount | src/main/java/sn/kredika_app/domain/model/ProductModel.java:373-375 | a discount exactly when a compare price exists above the price; for a non-negative price that compare price is positive |
| Product.Product.HasTag | src/main/java/sn/kredika_app/domain/model/ProductModel.java:483-485 | false without a list or a tag; otherwise true exactly when some entry of the list equals the tag |
| Product.Product.StockStatus | src/main/java/sn/kredika_app/domain/model/ProductModel.java:492-497 | OUT_OF_STOCK exactly when not in stock, LOW_STOCK exactly when in stock and low, IN_STOCK otherwise |
| Product.Product.DiscountPercentage | src/main/java/sn/kredika_app/domain/model/ProductModel.java:382-387 | 0 without a discount; throws ArithmeticException exactly for a discount over a zero compare price; otherwise the discount percentage rounded half up to two decimals, within 0..100 for a positive price |
| Product.Product.IsNewProduct | src/main/java/sn/kredika_app/domain/model/ProductModel.java:442-445 | created less than 30 days before now |
| Product.Product.IncrementViewCount | src/main/java/sn/kredika_app/domain/model/ProductModel.java:450-452 | the view count rises by exactly 1, a null count counting as 0 |
| Product.Product.IncrementPurchaseCount | src/main/java/sn/kredika_app/domain/model/ProductModel.java:459-461 | the purchase count rises by exactly the quantity, a null count counting as 0 |
| Product.Product.AddTag | src/main/java/sn/kredika_app/domain/model/ProductModel.java:468-485 | a non-blank tag is appended trimmed, after which the product has that tag; a null or blank tag changes nothing |
| Product.Product.UpdateRating | src/main/java/sn/kredika_app/domain/model/ProductModel.java:420-435 | the completion and the new rating and count are those of the rule as written (see Findings) |
| Product.Product.PrePersist | src/main/java/sn/kredika_app/domain/model/ProductModel.java:812-824 | null view, purchase and review counts become 0, present ones are kept, and the soft-delete flag is settled |
| Order.LinesTotal | src/main/java/sn/kredika_app/domain/model/OrderModel.java:159-165 | throws exactly when a line total is null; the sum of the line totals, 0 for no lines |
| Order.LinesTotalPermutation | src/main/java/sn/kredika_app/domain/model/OrderModel.java:159-165 | the total does not depend on the order of the lines |
| Order.LinesTotalAppend | src/main/java/sn/kredika_app/domain/model/OrderModel.java:159-165 | one more line adds exactly its total |
| Order.TotalPrices | src/main/java/sn/kredika_app/domain/model/OrderModel.java:159-165 | the total price of each item, in order |
| Order.Order.constructor | src/main/java/sn/kredika_app/domain/model/OrderModel.java:80-145 | a new order is CREATED and payment PENDING with no items, so it is cancellable and not paid |
| Order.Order.IsPaid | src/main/java/sn/kredika_app/domain/model/OrderModel.java:172-174 | paid exactly when the payment status is "PAID", so never when null or PENDING |
| Order.Order.IsCancellable | src/main/java/sn/kredika_app/domain/model/OrderModel.java:180-182 | cancellable exactly when the status is "CREATED" or "PROCESSING", so never when null or DELIVERED |
| Order.Order.CalculateTotalAmount | src/main/java/sn/kredika_app/domain/model/OrderModel.java:159-165 | with items, the stored total becomes the sum of the item totals, or the call throws on a null item total; without items nothing changes |
| Order.Order.MarkAsCompleted | src/main/java/sn/kredika_app/domain/model/OrderModel.java:187-190 | DELIVERED, completed now, and no longer cancellable |
| OrderItem.Item.constructor | src/main/java/sn/kredika_app/domain/model/OrderItemModel.java:53-85 | a new line has no total and no payment method, so it is neither price-consistent nor a credit payment |
| OrderItem.Item.IsCreditPayment | src/main/java/sn/kredika_app/domain/model/OrderItemModel.java:122-124 | a credit payment exactly when the method is "CREDIT", never when null |
| OrderItem.Item.IsPriceConsistent | src/main/java/sn/kredika_app/domain/model/OrderItemModel.java:131-137 | consistent exactly when all three amounts are present and the total equals unit price times quantity; so false when an amount is missing, a line of one item totals its unit price and one of zero items totals 0 |
| OrderItem.Item.CalculateTotalPrice | src/main/java/sn/kredika_app/domain/model/OrderItemModel.java:110-137 | with a quantity and a unit price the total becomes their product, which within the declared bounds makes the line price-consistent; otherwise nothing changes |
| Cart.NewCart | src/main/java/sn/kredika_app/domain/model/CartModel.java:58-90 | a new cart has an empty item list, counts 0 items and never expires |
| Cart.IsExpired | src/main/java/sn/kredika_app/domain/model/CartModel.java:97-99 | never without an expiry; otherwise expired exactly when now is past the expiry |
| Cart.Quantities | src/main/java/sn/kredika_app/domain/model/CartModel.java:106-110 | the quantity of each line, in order |
| Cart.TotalItemsCount | src/main/java/sn/kredika_app/domain/model/CartModel.java:106-110 | throws NullPointerException for a null item list and, for a list, exactly when a quantity is null; otherwise the sum of the quantities whenever that sum fits in an int |
| Cart.QuantitySumInsert | src/main/java/sn/kredika_app/domain/model/CartModel.java:106-110 | inserting a line anywhere adds its quantity to the sum |
| Cart.CountAddLine | src/main/java/sn/kredika_app/domain/model/CartModel.java:106-110 | without overflow, adding a line raises the count by its quantity wherever it is inserted |
| User.WithRole | src/main/java/sn/kredika_app/domain/model/UserModel.java:304-322 | an acceptable role not yet held is appended, after which it is held; otherwise nothing changes; every held role stays held and a list without duplicates keeps none |
| User.WithRoleIdempotent | src/main/java/sn/kredika_app/domain/model/UserModel.java:313-322 | adding a role twice is adding it once |
| User.HasRole | src/main/java/sn/kredika_app/domain/model/UserModel.java:304-306 | false without a list or a role; otherwise true exactly when some entry equals the role |
| User.FirstDefault | src/main/java/sn/kredika_app/domain/model/UserModel.java:279-285 | the index of the first address flagged default, or the length when none is |
| User.FirstActive | src/main/java/sn/kredika_app/domain/model/UserModel.java:354-360 | the index of the first cart with status ACTIVE, or the length when none has |
| User.User.constructor | src/main/java/sn/kredika_app/domain/model/UserModel.java:113-214 | a new user is an active CUSTOMER, unverified, with empty role, address and cart lists, so no default address and no active cart |
| User.User.Age | src/main/java/sn/kredika_app/domain/model/UserModel.java:252-255 | null exactly without a date of birth; otherwise the years of Period.between, which for a birth date not after today is the number of birthdays passed: today is on or after that anniversary and before the next |
| Clock.PeriodYearsReached | src/main/java/sn/kredika_app/domain/model/UserModel.java:252-255 | the years of Period.between reach k >= 1 exactly when the end date is not before the k-th anniversary of the start, a 29 February start reaching it on 1 March in other years |
| Clock.PeriodYearsBirthdays | src/main/java/sn/kredika_app/domain/model/UserModel.java:252-255 | from a start not after the end, the period years y are the anniversaries passed: the end is on or after the y-th and before the (y+1)-th |
| User.User.IsAdult | src/main/java/sn/kredika_app/domain/model/UserModel.java:262-265 | never without a date of birth; an adult has an age of at least 18 |
| User.User.IsFullyVerified | src/main/java/sn/kredika_app/domain/model/UserModel.java:271-273 | fully verified exactly when both the email and the phone flag are TRUE; never with a null flag |
| User.User.IsActive | src/main/java/sn/kredika_app/domain/model/UserModel.java:336-338 | never for a null status; active exactly when the lower-cased status is "active" |
| User.User.DefaultAddress | src/main/java/sn/kredika_app/domain/model/UserModel.java:279-285 | null without a list; otherwise the first address flagged default, or null when none is |
| User.User.ActiveCart | src/main/java/sn/kredika_app/domain/model/UserModel.java:354-360 | null without a list; otherwise the first cart with status ACTIVE, or null when none has |
| User.User.DisplayName | src/main/java/sn/kredika_app/domain/model/UserModel.java:291-296 | the full name when it is not blank; otherwise "" without an email, or the part of the email before the first '@' |
| User.User.Initials | src/main/java/sn/kredika_app/domain/model/UserModel.java:367-375 | "" for a missing or blank name; one upper-cased letter for a single word; at most two letters; the only failure is StringIndexOutOfBoundsException |
| User.User.HasProfessionalEmail | src/main/java/sn/kredika_app/domain/model/UserModel.java:382-387 | false without an email; an email without '@' throws ArrayIndexOutOfBoundsException, since `split("@")` then yields a single piece and element 1 does not exist |
| User.User.AddRole | src/main/java/sn/kredika_app/domain/model/UserModel.java:313-322 | the roles become the list with the role added; an acceptable role is then held; a held or unacceptable role changes nothing; no duplicates appear |
| User.User.UpdateLastLogin | src/main/java/sn/kredika_app/domain/model/UserModel.java:329-331 | the last login becomes now |
| User.AdultFromEighteenthBirthday | src/main/java/sn/kredika_app/domain/model/UserModel.java:252-265 | a user is an adult on exactly the days not before the eighteenth anniversary of the date of birth |
| User.DisplayNameIsLocalPart | src/main/java/sn/kredika_app/domain/model/UserModel.java:291-296 | without a usable name, the display name of "local@domain" is local |
| User.InitialsOfTwoWords | src/main/java/sn/kredika_app/domain/model/UserModel.java:367-375 | "first last" gives the upper-cased first letters of both words |
| User.InitialsLeadingSpaceFails | src/main/java/sn/kredika_app/domain/model/UserModel.java:367-375 | a non-blank name starting with a space throws, because split yields an empty first word |
| User.ProfessionalEmailByDomain | src/main/java/sn/kredika_app/domain/model/UserModel.java:382-387 | "local@domain" is professional exactly when the lower-cased domain is not one of the free-mail domains |
| UserAddress.FullPatternSpecifiers | src/main/java/sn/kredika_app/domain/model/UserAddressModel.java:166 | the format getFullAddress uses holds six conversions |
| UserAddress.FullAddressAlwaysThrows | src/main/java/sn/kredika_app/domain/model/UserAddressModel.java:164-173 | as written, getFullAddress throws MissingFormatArgumentException whatever the fields hold |
| UserAddress.Address.FullAddressCorrected | src/main/java/sn/kredika_app/domain/model/UserAddressModel.java:164-173 | the intended full address: street, city, optional region, postal code and country joined as the format lays out, with ", , " collapsed, and unchanged when no field is empty |
| UserAddress.Address.constructor | src/main/java/sn/kredika_app/domain/model/UserAddressModel.java:95 | every field null and not default, so the address is invalid and international |
| UserAddress.Address.IsValid | src/main/java/sn/kredika_app/domain/model/UserAddressModel.java:188-195 | valid exactly when there is a user, a non-empty type, street, city and postal code, and a two-letter country; an empty type, street, city or postal code is invalid |
| UserAddress.Address.SetAsDefault | src/main/java/sn/kredika_app/domain/model/UserAddressModel.java:179-181 | isDefault becomes true and no other field changes |
| UserAddress.Address.IsSimilarTo | src/main/java/sn/kredika_app/domain/model/UserAddressModel.java:203-211 | similar exactly when the other address is not null and street, city, region, postal code and country are pairwise equal, two nulls counting as equal; so every address is similar to itself |
| UserAddress.SimilarityIsEquivalence | src/main/java/sn/kredika_app/domain/model/UserAddressModel.java:203-211 | similarity is reflexive, symmetric and transitive, and false for null |
| UserAddress.Address.ShortAddress | src/main/java/sn/kredika_app/domain/model/UserAddressModel.java:218-220 | the city, ", " and the country, null printed as "null" |
| UserAddress.Address.FormattedType | src/main/java/sn/kredika_app/domain/model/UserAddressModel.java:227-231 | "" for a null type; an empty type throws; otherwise the first character kept and every other lower-cased |
| UserAddress.FormattedTypeIdempotent | src/main/java/sn/kredika_app/domain/model/UserAddressModel.java:227-231 | formatting an already formatted non-empty type changes nothing |
| UserAddress.Address.IsInternational | src/main/java/sn/kredika_app/domain/model/UserAddressModel.java:238-241 | international exactly when the country is not "FR" in any letter case; a null country is international |
| UserAddress.Address.CloneAddress | src/main/java/sn/kredika_app/domain/model/UserAddressModel.java:248-259 | a new address with the same user, type, default flag and address fields, no coordinates, similar to the original both ways, and valid exactly when the original is |
| UserSession.NoneEquals | src/main/java/sn/kredika_app/domain/model/UserSessionModel.java:190-193 | with no null device, true exactly when no known device equals the user agent; throws NullPointerException exactly when a null device comes before the first device equal to the user agent; a matching device is never reported new |
| UserSession.Session.constructor | src/main/java/sn/kredika_app/domain/model/UserSessionModel.java:95 | a new session is active without expiry, so valid at every instant |
| UserSession.Session.IsExpired | src/main/java/sn/kredika_app/domain/model/UserSessionModel.java:110-112 | never without an expiry; otherwise expired exactly when now is strictly after it |
| UserSession.Session.IsValid | src/main/java/sn/kredika_app/domain/model/UserSessionModel.java:119-121 | never unless the active flag is TRUE; valid exactly when active and now is not after the expiry |
| UserSession.Session.UpdateLastActivity | src/main/java/sn/kredika_app/domain/model/UserSessionModel.java:126-128 | the last activity becomes now, so the session is not inactive too long |
| UserSession.Session.Invalidate | src/main/java/sn/kredika_app/domain/model/UserSessionModel.java:133-135 | inactive, so valid at no instant |
| UserSession.Session.ExtendSession | src/main/java/sn/kredika_app/domain/model/UserSessionModel.java:142-146 | a positive duration moves the expiry that many minutes later, or throws on a null expiry; otherwise nothing changes; an extended session is expired at no instant it was not before |
| UserSession.Session.RemainingTimeMinutes | src/main/java/sn/kredika_app/domain/model/UserSessionModel.java:153-156 | null exactly without an expiry; otherwise the whole minutes to the expiry truncated toward zero (r minutes fit in the time left and r + 1 do not, mirrored for a past expiry); positive only for a session that is not expired |
| UserSession.Session.IsInactiveTooLong | src/main/java/sn/kredika_app/domain/model/UserSessionModel.java:164-167 | true without activity; otherwise true exactly when at least max + 1 whole minutes have passed |
| UserSession.Session.DeviceType | src/main/java/sn/kredika_app/domain/model/UserSessionModel.java:174-182 | Inconnu exactly without a user agent; Mobile, Tablette and Ordinateur exactly for their markers in priority order; Autre otherwise |
| UserSession.Session.IsNewDevice | src/main/java/sn/kredika_app/domain/model/UserSessionModel.java:190-193 | false without a user agent or a list; otherwise new exactly when no known device equals the user agent |
| Notification.Notification.constructor | src/main/java/sn/kredika_app/domain/model/NotificationModel.java:71-93 | NORMAL priority, APP channel, unread and unsent, so not high priority and never expired |
| Notification.Notification.IsHighPriority | src/main/java/sn/kredika_app/domain/model/NotificationModel.java:144-146 | high exactly for "HIGH" or "URGENT", never for null or NORMAL |
| Notification.Notification.IsSent | src/main/java/sn/kredika_app/domain/model/NotificationModel.java:153-155 | sent exactly when a send time is recorded |
| Notification.Notification.MarkAsRead | src/main/java/sn/kredika_app/domain/model/NotificationModel.java:134-137 | read at now, and so never expired |
| Notification.Notification.IsExpired | src/main/java/sn/kredika_app/domain/model/NotificationModel.java:162-165 | throws exactly for a null read flag; expired exactly when unread, sent and sent more than 30 days before now |
| Notification.ExpiredStaysExpired | src/main/java/sn/kredika_app/domain/model/NotificationModel.java:162-165 | an expired notification stays expired at every later instant |
| ProductReview.Review.constructor | src/main/java/sn/kredika_app/domain/model/ProductReviewModel.java:76-88 | not a verified purchase, not approved, no helpful vote |
| ProductReview.Review.MarkAsVerifiedPurchase | src/main/java/sn/kredika_app/domain/model/ProductReviewModel.java:119-121 | only the verified-purchase flag changes, to true |
| ProductReview.Review.Approve | src/main/java/sn/kredika_app/domain/model/ProductReviewModel.java:126-128 | only the approval flag changes, to true |
| ProductReview.Review.IncrementHelpfulCount | src/main/java/sn/kredika_app/domain/model/ProductReviewModel.java:135-138 | a null count becomes 1; otherwise one more vote, with int wrap-around; the new count is stored and returned |
| ProductReview.Review.IsPositive | src/main/java/sn/kredika_app/domain/model/ProductReviewModel.java:145-147 | never unrated; a positive rating within the scale is 4 or 5 |
| ProductReview.Review.IsNegative | src/main/java/sn/kredika_app/domain/model/ProductReviewModel.java:154-156 | never unrated; a negative rating within the scale is 1 or 2 |
| ProductReview.Review.IsNeutral | src/main/java/sn/kredika_app/domain/model/ProductReviewModel.java:163-165 | neutral exactly for a rating of 3 |
| ProductReview.ClassificationPartition | src/main/java/sn/kredika_app/domain/model/ProductReviewModel.java:145-165 | a rated review is exactly one of positive, neutral and negative; an unrated one is none |
| Category.NewCategory | src/main/java/sn/kredika_app/domain/model/CategoryModel.java:83-138 | first position, active, no children and no active product; a root exactly without a parent |
| Category.IsRootCategory | src/main/java/sn/kredika_app/domain/model/CategoryModel.java:144-146 | a root exactly without a parent |
| Category.HasChildren | src/main/java/sn/kredika_app/domain/model/CategoryModel.java:152-154 | never with a null list; otherwise exactly when there is at least one child |
| Category.ActiveCount | src/main/java/sn/kredika_app/domain/model/CategoryModel.java:160-164 | the only failure is a NullPointerException; a count is between 0 and the number of products |
| Category.ActiveCountMeaning | src/main/java/sn/kredika_app/domain/model/CategoryModel.java:160-164 | counting throws exactly when a product's flag is null; otherwise the count is the number of products exactly when all are active, and 0 exactly when none is |
| Category.CountActiveProducts | src/main/java/sn/kredika_app/domain/model/CategoryModel.java:160-164 | a null product list throws; otherwise the count of its active products |
| Category.ActiveCountAppend | src/main/java/sn/kredika_app/domain/model/CategoryModel.java:160-164 | the count over two lists together is the sum of their counts |
| CodeList.NewCode | src/main/java/sn/kredika_app/domain/model/CodeListModel.java:81 | a new entry is active |
| CodeList.IsInactive | src/main/java/sn/kredika_app/domain/model/CodeListModel.java:105-107 | inactive unless the flag is TRUE, so a null flag counts as inactive |
| CodeList.CompositeKey | src/main/java/sn/kredika_app/domain/model/CodeListModel.java:114-116 | type, ':' and code; for a well-formed entry, splitting the key at ':' gives back the type and the code |
| CodeList.CompositeKeyInjective | src/main/java/sn/kredika_app/domain/model/CodeListModel.java:41-116 | distinct well-formed (type, code) pairs have distinct keys |

## Left out

- `UserAddressModel.geocodeAddress` calls an external geocoding service over the network.
- `calculateDistanceTo` is floating-point trigonometry.
- `WishlistModel.getDisplayInfo` only concatenates fields for display.
- JPA and Lombok plumbing is not modelled: identifiers, auditing timestamps, relations, getters and setters.
- Bean Validation annotations are enforced by the framework, not by the code. They appear only as the stated `WithinBounds` and `WellFormed` predicates, and the `@Pattern` regular expressions are written out as character classes.
- The DTO classes are not modelled, nor are the entities without behaviour (cart items, vehicles, lands and their documents).
- `GatewayResponse` and the notification payload are carried as opaque values.
- Times are whole seconds, not nanoseconds. `Clock.MinutesBetween` truncates toward zero as `Duration.between(…).toMinutes()` does.
- Case mapping (`toLowerCase`, `toUpperCase`, `equalsIgnoreCase`) covers ASCII letters only.
- `JavaLang.Format`: only the `%s` conversion is modelled, because the rules use no other.
- `long` counters (views, purchases) are unbounded integers; their 64-bit overflow is not modelled.
- Elements of entity lists are never null in the model: a user's addresses, carts and roles, an order's items, a cart's items, a product's images and tags, and a category's products. Where the Java code dereferences or unboxes a null element it throws, and that case is left out. The known devices of a session are the exception: a null device is modelled.
- `Product.AllImageUrls`: the list is specified as ordered by position and a permutation of the images. It does not state that images at equal positions keep their original order, although `Stream.sorted` is stable.
- `Product.Product.UpdateRating`: a new rating with more than two decimals is not modelled; ratings are `Cents`. The review count is an `Integer` whose 32-bit wrap-around on `reviewCount++` is not modelled; the count is an unbounded integer.
- `InstallmentPlan.TotalWithinTwicePrincipal`: the commission derivation rounds half up, an assumption about the documented relation; the code never computes it.
- `User.User.HasProfessionalEmail`: states the null and no-'@' cases as ensures; the domain case is stated by `User.ProfessionalEmailByDomain` for emails with exactly one '@'.
- `PaymentTransaction.Transaction.ProcessRefund`: the refund is `Cents`, so a refund with more than two decimals is not modelled; a null refund is modelled and throws.
- `PaymentSchedule.Schedule.MarkAsPaid`: the payment is `Cents`, so a payment with more than two decimals is not modelled; a null payment is modelled and throws.
- `Cart.TotalItemsCount`: the value is stated only when the sum fits in an int; the body wraps a larger sum around as `IntStream.sum` does.
- `User.User.Initials`: the general multi-word case is stated by `User.InitialsOfTwoWords` for two words only.
- Some fields the Java methods dereference without a null check are modelled as non-null values, so their `NullPointerException`s are not modelled:
  - fields declared `@NotNull` or `nullable = false`: the credit settings' commission rate, the credit profile's limit, available credit and debt, and the user and product identifiers of a wishlist entry;
  - amount fields: the transaction amounts and refund, the schedule amounts and due date, the plan's principal, commission, total and instalment amounts, the product price and the order total.

## Findings

| source | as written | input that shows it | evidently intended | confidence | as-written member | corrected member |
|---|---|---|---|---|---|---|
| src/main/java/sn/kredika_app/domain/model/UserAddressModel.java:164-173 | the format "%s, %s%s, %s %s, %s" has six conversions for five arguments, so `String.format` always throws `MissingFormatArgumentException` | any address, e.g. every field null | street, city, optional region, postal code and country formatted as "%s, %s%s, %s %s" | not executed | UserAddress.FullAddressAlwaysThrows | UserAddress.Address.FullAddressCorrected |
| src/main/java/sn/kredika_app/domain/model/ProductModel.java:420-435 | editing a review (`isNew == false`) adds the new rating to the total without taking the replaced one out, and divides by zero when no review is counted | rating 4.00 over 1 review, edited to 2.00: stores 6.00 | the replaced rating is taken out, so the stored rating stays the average of the reviews | not executed | Product.EditAddsInsteadOfReplacing | Product.EditKeepsMean |

`Product.Product.UpdateRating` keeps the behaviour as written. The corrected edit is `Product.RatingEdit`, proved to keep the mean by `Product.EditKeepsMean`.

=== FILE: base_model.dfy ===
/** The soft-delete flag every entity inherits from BaseModel. */
module BaseModel {
  import opened JavaLang

  /** The flag after prePersist: a missing flag becomes false, a present one
      is kept. */
  function Settled(isDeleted: Option<bool>): (r: Option<bool>)
    ensures r != None
    ensures isDeleted != None ==> r == isDeleted
    ensures r == Some(true) <==> isDeleted == Some(true)
  {
    if isDeleted == None then Some(false) else isDeleted
  }

  /** Persisting twice settles the flag no further than persisting once. */
  lemma SettledIdempotent(isDeleted: Option<bool>)
    ensures Settled(Settled(isDeleted)) == Settled(isDeleted)
  {
  }

  /** The state BaseModel keeps for itself; the identifier, timestamps,
      auditing names and version are written by the persistence framework. */
  class Base {
    var isDeleted: Option<bool>

    /** A new entity is not deleted. */
    constructor ()
      ensures isDeleted == Some(false)
    {
      isDeleted := Some(false);
    }

    /** preRemove: the entity is soft-deleted instead of removed. */
    method PreRemove()
      modifies this`isDeleted
      ensures isDeleted == Some(true)
    {
      isDeleted := Some(true);
    }

    /** prePersist: a null flag becomes false; true and false are kept. */
    method PrePersist()
      modifies this`isDeleted
      ensures isDeleted == Settled(old(isDeleted))
    {
      if isDeleted == None {
        isDeleted := Some(false);
      }
    }
  }
}

=== FILE: cart.dfy ===
/** CartModel: a user's shopping cart. */
module Cart {
  import opened JavaLang
  import opened Decimal
  import opened Clock

  /** What the cart reads of a cart line: its quantity. */
  datatype CartItem = CartItem(quantity: Option<int>)

  datatype Cart = Cart(
    userId: Option<Uuid>,
    statusCode: Option<string>,
    totalAmount: Cents,
    expiresAt: Option<DateTime>,
    items: Option<seq<CartItem>>)

  /** A new cart: an empty item list and nothing to pay. */
  function NewCart(userId: Option<Uuid>): (c: Cart)
    ensures c.totalAmount == 0 && c.items == Some([]) && c.expiresAt == None
    ensures TotalItemsCount(c) == Ok(0)
    ensures forall now :: !IsExpired(c, now)
  {
    Cart(userId, None, 0, None, Some([]))
  }

  /** isExpired: an expiry strictly before now; a cart without one never
      expires. */
  predicate IsExpired(c: Cart, now: DateTime)
    ensures c.expiresAt == None ==> !IsExpired(c, now)
    ensures IsExpired(c, now) <==> c.expiresAt != None && now - c.expiresAt.value >= 1
  {
    c.expiresAt != None && c.expiresAt.value < now
  }

  function Quantities(items: seq<CartItem>): (r: seq<Option<int>>)
    ensures |r| == |items| && forall k :: 0 <= k < |items| ==> r[k] == items[k].quantity
  {
    seq(|items|, k requires 0 <= k < |items| => items[k].quantity)
  }

  /** getTotalItemsCount: the int sum of the quantities (IntStream.sum, so
      it wraps around past 2^31 - 1); a null item list (setItems(null))
      throws on items.stream(), a null quantity throws on unboxing. */
  function TotalItemsCount(c: Cart): (r: Result<int>)
    ensures c.items == None ==> r == Thrown(NullPointer)
    ensures c.items != None ==>
      (r.Thrown? <==> exists k :: 0 <= k < |c.items.value| && c.items.value[k].quantity == None)
    ensures r.Thrown? ==> r.error == NullPointer
    ensures r.Ok? ==> c.items != None && var s := Sum(Values(Quantities(c.items.value)));
      -0x8000_0000 <= s < 0x8000_0000 ==> r.value == s
  {
    match c.items
    case None => Thrown(NullPointer)
    case Some(items) =>
      var qs := Quantities(items);
      if AllPresent(qs) then Ok(ToInt32(Sum(Values(qs))))
      else Thrown(NullPointer)
  }

  /** The sum of the quantities after a line is inserted anywhere. */
  lemma QuantitySumInsert(items: seq<CartItem>, i: int, q: int)
    requires AllPresent(Quantities(items)) && 0 <= i <= |items|
    ensures var qs' := Quantities(items[..i] + [CartItem(Some(q))] + items[i..]);
      AllPresent(qs') && Sum(Values(qs')) == Sum(Values(Quantities(items))) + q
  {
    var qs, qs' := Quantities(items), Quantities(items[..i] + [CartItem(Some(q))] + items[i..]);
    assert qs' == qs[..i] + [Some(q)] + qs[i..];
    assert multiset(qs') == multiset(qs + [Some(q)]) by {
      assert qs == qs[..i] + qs[i..];
    }
    ValuesConcat(qs, [Some(q)]);
    ValuesPermutation(qs + [Some(q)], qs');
    assert Values([Some(q)]) == [q];
    SumAppend(Values(qs), q);
    SumPermutation(Values(qs + [Some(q)]), Values(qs'));
  }

  /** Adding a line raises the count by its quantity, wherever the line is
      put, as long as the count stays within the int range. */
  lemma CountAddLine(c: Cart, i: int, q: int)
    requires TotalItemsCount(c).Ok? && 0 <= i <= |c.items.value|
    requires -0x8000_0000 <= Sum(Values(Quantities(c.items.value))) < 0x8000_0000
    requires -0x8000_0000 <= Sum(Values(Quantities(c.items.value))) + q < 0x8000_0000
    ensures var d := c.(items := Some(c.items.value[..i] + [CartItem(Some(q))] + c.items.value[i..]));
      TotalItemsCount(d) == Ok(TotalItemsCount(c).value + q)
  {
    QuantitySumInsert(c.items.value, i, q);
  }
}

=== FILE: category.dfy ===
/** CategoryModel: a node of the product category tree. */
module Category {
  import opened JavaLang

  /** What a category reads of one of its products: the active flag. */
  datatype CategoryProduct = CategoryProduct(isActive: Option<bool>)

  datatype Category = Category(
    name: string,
    slug: string,
    parentId: Option<Uuid>,
    position: Option<int>,
    isActive: Option<bool>,
    products: Option<seq<CategoryProduct>>,
    children: Option<seq<Category>>)

  /** A new category: first position, active, with no products and no
      children. */
  function NewCategory(name: string, slug: string, parentId: Option<Uuid>): (c: Category)
    ensures c.name == name && c.slug == slug && c.parentId == parentId
    ensures c.position == Some(0) && c.isActive == Some(true)
    ensures !HasChildren(c) && CountActiveProducts(c) == Ok(0)
    ensures IsRootCategory(c) <==> parentId == None
  {
    Category(name, slug, parentId, Some(0), Some(true), Some([]), Some([]))
  }

  /** isRootCategory: no parent. */
  predicate IsRootCategory(c: Category)
    ensures IsRootCategory(c) <==> c.parentId == None
  {
    c.parentId == None
  }

  /** hasChildren: a non-null, non-empty list of children. */
  predicate HasChildren(c: Category)
    ensures c.children == None ==> !HasChildren(c)
    ensures HasChildren(c) <==> c.children != None && |c.children.value| >= 1
  {
    c.children != None && c.children.value != []
  }

  /** filter(ProductModel::getActive).count(): the products whose flag is
      true; unboxing a null flag throws. */
  function ActiveCount(ps: seq<CategoryProduct>): (r: Result<int>)
    ensures r.Thrown? ==> r.error == NullPointer
    ensures r.Ok? ==> 0 <= r.value <= |ps|
  {
    if ps == [] then Ok(0)
    else
      match ps[0].isActive
      case None => Thrown(NullPointer)
      case Some(a) =>
        match ActiveCount(ps[1..])
        case Thrown(e) => Thrown(e)
        case Ok(n) => Ok(n + if a then 1 else 0)
  }

  /** A list counts without throwing exactly when its head has a flag and its
      tail counts; the head then adds one when it is active. */
  lemma ActiveCountCons(ps: seq<CategoryProduct>)
    requires ps != []
    ensures ActiveCount(ps).Ok? <==> ps[0].isActive != None && ActiveCount(ps[1..]).Ok?
    ensures ActiveCount(ps).Ok? ==>
      ActiveCount(ps).value == ActiveCount(ps[1..]).value + if ps[0].isActive == Some(true) then 1 else 0
  {
  }

  /** The count throws exactly when some product has a null flag; otherwise
      it is the number of products exactly when all are active, and zero
      exactly when none is. */
  lemma {:induction false} ActiveCountMeaning(ps: seq<CategoryProduct>)
    ensures ActiveCount(ps).Thrown? <==> exists k :: 0 <= k < |ps| && ps[k].isActive == None
    ensures ActiveCount(ps).Ok? ==>
      (ActiveCount(ps).value == |ps| <==> forall k :: 0 <= k < |ps| ==> ps[k].isActive == Some(true))
    ensures ActiveCount(ps).Ok? ==>
      (ActiveCount(ps).value == 0 <==> forall k :: 0 <= k < |ps| ==> ps[k].isActive != Some(true))
  {
    if ps != [] {
      var tail := ps[1..];
      assert forall k :: 1 <= k < |ps| ==> ps[k] == tail[k - 1];
      ActiveCountCons(ps);
      ActiveCountMeaning(tail);
      if ps[0].isActive == None {
        assert ActiveCount(ps).Thrown?;
      } else if ActiveCount(tail).Thrown? {
        var k :| 0 <= k < |tail| && tail[k].isActive == None;
        assert ps[k + 1].isActive == None;
      } else {
        assert forall k :: 0 <= k < |ps| ==> ps[k].isActive != None by {
          forall k | 0 <= k < |ps| ensures ps[k].isActive != None {
            if k > 0 {
              assert ps[k] == tail[k - 1];
            }
          }
        }
        if ActiveCount(ps).value == |ps| {
          assert ps[0].isActive == Some(true);
        }
      }
    }
  }

  /** countActiveProducts: the number of active products; a null product
      list throws. */
  function CountActiveProducts(c: Category): (r: Result<int>)
    ensures c.products == None ==> r == Thrown(NullPointer)
    ensures c.products != None ==> r == ActiveCount(c.products.value)
  {
    match c.products
    case None => Thrown(NullPointer)
    case Some(ps) => ActiveCount(ps)
  }

  /** The count over two lists of products together is the sum of the two
      counts. */
  lemma {:induction false} ActiveCountAppend(xs: seq<CategoryProduct>, ys: seq<CategoryProduct>)
    requires ActiveCount(xs).Ok? && ActiveCount(ys).Ok?
    ensures ActiveCount(xs + ys) == Ok(ActiveCount(xs).value + ActiveCount(ys).value)
  {
    if xs != [] {
      var zs := xs + ys;
      assert zs[0] == xs[0] && zs[1..] == xs[1..] + ys;
      ActiveCountCons(xs);
      ActiveCountAppend(xs[1..], ys);
      ActiveCountCons(zs);
    } else {
      assert xs + ys == ys;
    }
  }
}

=== FILE: clock.dfy ===
/** Time values as the entities use java.time. Nothing here reads a clock:
    every rule that calls LocalDateTime.now() or LocalDate.now() receives
    "now" as a parameter instead. */
module Clock {

  /** A LocalDateTime, as whole seconds on one proleptic time line (a
      LocalDateTime has no zone, so a day is always 86400 seconds). */
  type DateTime = int

  const SecondsPerMinute: int := 60
  const SecondsPerDay: int := 86400

  /** LocalDateTime.plusMinutes. */
  function PlusMinutes(t: DateTime, minutes: int): DateTime
  {
    t + minutes * SecondsPerMinute
  }

  /** LocalDateTime.plusDays. */
  function PlusDays(t: DateTime, days: int): DateTime
  {
    t + days * SecondsPerDay
  }

  /** Java's long division, which truncates toward zero. */
  function TruncDiv(a: int, b: int): (q: int)
    requires b > 0
    ensures a >= 0 ==> q * b <= a < q * b + b
    ensures a < 0 ==> q * b - b < a <= q * b
  {
    if a >= 0 then a / b else -((-a) / b)
  }

  /** Duration.between(from, to).toMinutes(): whole minutes, truncated toward zero. */
  function MinutesBetween(from: DateTime, to: DateTime): (m: int)
    ensures from <= to ==> m >= 0 && m * SecondsPerMinute <= to - from < (m + 1) * SecondsPerMinute
    ensures to <= from ==> m <= 0 && (m - 1) * SecondsPerMinute < to - from <= m * SecondsPerMinute
  {
    TruncDiv(to - from, SecondsPerMinute)
  }

  /** A LocalDate. */
  datatype Date = Date(year: int, month: int, day: int)

  /** LocalDate.isBefore: strictly earlier in (year, month, day) order. */
  predicate IsBefore(a: Date, b: Date)
  {
    a.year < b.year
    || (a.year == b.year && a.month < b.month)
    || (a.year == b.year && a.month == b.month && a.day < b.day)
  }

  /** LocalDate.isAfter. */
  predicate IsAfter(a: Date, b: Date)
  {
    IsBefore(b, a)
  }

  /** Period.between(start, end).getYears(): the count of whole months between
      the two dates (one fewer when the end day has not reached the start day),
      divided by twelve with truncation toward zero. */
  function PeriodYears(start: Date, end: Date): int
  {
    var months := (end.year * 12 + end.month) - (start.year * 12 + start.month);
    var days := end.day - start.day;
    var whole :=
      if months > 0 && days < 0 then months - 1
      else if months < 0 && days > 0 then months + 1
      else months;
    TruncDiv(whole, 12)
  }

  /** Period years are the birthday count: for valid months and k >= 1, at
      least k whole years lie between the two dates exactly when the end is
      not before the k-th anniversary of the start (a 29 February start
      reaching its anniversary on 1 March in other years). */
  lemma {:induction false} PeriodYearsReached(start: Date, end: Date, k: int)
    requires 1 <= start.month <= 12 && 1 <= end.month <= 12 && k >= 1
    ensures PeriodYears(start, end) >= k <==> !IsBefore(end, Date(start.year + k, start.month, start.day))
  {
    var months := (end.year * 12 + end.month) - (start.year * 12 + start.month);
    var days := end.day - start.day;
    var whole :=
      if months > 0 && days < 0 then months - 1
      else if months < 0 && days > 0 then months + 1
      else months;
    assert PeriodYears(start, end) == TruncDiv(whole, 12);
    if IsBefore(end, start) {
      assert whole <= 0;
      assert IsBefore(end, Date(start.year + k, start.month, start.day));
    } else {
      assert whole == months - (if days < 0 then 1 else 0);
      assert whole >= 0;
      var anniversary := Date(start.year + k, start.month, start.day);
      assert !IsBefore(end, anniversary) <==> whole >= 12 * k;
    }
  }

  /** From a start date not after the end date, the period years are the
      number of anniversaries passed: the end is on or after the y-th
      anniversary and before the next one. */
  lemma {:induction false} PeriodYearsBirthdays(start: Date, end: Date)
    ensures 1 <= start.month <= 12 && 1 <= end.month <= 12 && !IsBefore(end, start) ==>
      var y := PeriodYears(start, end);
      && y >= 0
      && !IsBefore(end, Date(start.year + y, start.month, start.day))
      && IsBefore(end, Date(start.year + y + 1, start.month, start.day))
  {
    if 1 <= start.month <= 12 && 1 <= end.month <= 12 && !IsBefore(end, start) {
      var y := PeriodYears(start, end);
      assert y >= 0 by {
        var months := (end.year * 12 + end.month) - (start.year * 12 + start.month);
        assert months >= 0;
      }
      if y >= 1 {
        PeriodYearsReached(start, end, y);
      }
      PeriodYearsReached(start, end, y + 1);
    }
  }
}

=== FILE: code_list.dfy ===
/** CodeListModel: one entry (type, code) of a reference list such as the
    order statuses or the payment methods. */
module CodeList {
  import opened JavaLang

  const KeySeparator: char := ':'

  datatype Code = Code(
    codeType: Option<string>,
    code: Option<string>,
    value: Option<string>,
    codeLabel: Option<string>,
    isActive: Option<bool>,
    position: Option<int>)

  /** A list type as its declared pattern ^[A-Z_]+$ admits. */
  predicate TypeMatches(s: string)
  {
    s != [] && forall i :: 0 <= i < |s| ==> ('A' <= s[i] <= 'Z' || s[i] == '_')
  }

  /** A code as its declared pattern ^[A-Z0-9_]+$ admits. */
  predicate CodeMatches(s: string)
  {
    s != [] && forall i :: 0 <= i < |s| ==> ('A' <= s[i] <= 'Z' || '0' <= s[i] <= '9' || s[i] == '_')
  }

  /** An entry whose type and code satisfy their declared patterns. */
  predicate WellFormed(c: Code)
  {
    c.codeType != None && TypeMatches(c.codeType.value)
    && c.code != None && CodeMatches(c.code.value)
  }

  /** A new entry is active (the default of isActive). */
  function NewCode(codeType: string, code: string): (c: Code)
    ensures c.codeType == Some(codeType) && c.code == Some(code)
    ensures !IsInactive(c)
  {
    Code(Some(codeType), Some(code), None, None, Some(true), None)
  }

  /** isInactive: the flag is not TRUE, so a null flag counts as inactive. */
  predicate IsInactive(c: Code)
    ensures c.isActive == None || c.isActive == Some(false) ==> IsInactive(c)
    ensures IsInactive(c) <==> c.isActive != Some(true)
  {
    c.isActive != Some(true)
  }

  /** getCompositeKey: type, ':' and code (a null part printed as "null").
      A well-formed entry's key splits at its one ':' back into the type and
      the code. */
  function CompositeKey(c: Code): (r: string)
    ensures |r| == |Render(c.codeType)| + 1 + |Render(c.code)|
    ensures r[|Render(c.codeType)|] == KeySeparator
    ensures WellFormed(c) ==> Split(r, KeySeparator) == [c.codeType.value, c.code.value]
  {
    var t, k := Render(c.codeType), Render(c.code);
    if WellFormed(c) then
      SplitPair(t, k, KeySeparator);
      t + [KeySeparator] + k
    else
      t + [KeySeparator] + k
  }

  /** Distinct well-formed (type, code) pairs have distinct keys. */
  lemma CompositeKeyInjective(a: Code, b: Code)
    requires WellFormed(a) && WellFormed(b) && CompositeKey(a) == CompositeKey(b)
    ensures a.codeType == b.codeType && a.code == b.code
  {
    assert [a.codeType.value, a.code.value] == [b.codeType.value, b.code.value];
  }
}

=== FILE: credit_profile.dfy ===
/** CreditProfileModel: a user's credit line and repayment record. */
module CreditProfile {
  import opened JavaLang
  import opened Decimal
  import opened Clock

  datatype Profile = Profile(
    creditScore: int,
    creditLimit: Cents,
    availableCredit: Cents,
    totalDebt: Cents,
    defaultCount: Option<int>,
    lastCreditReview: Option<Date>)

  /** The default count from which a user is in default. */
  const DefaultThreshold: int := 3

  /** The declared bounds of the columns: a score of 300 to 850 and
      non-negative limit, available credit, debt and default count. */
  predicate WithinBounds(p: Profile)
  {
    && 300 <= p.creditScore <= 850
    && p.creditLimit >= 0 && p.availableCredit >= 0 && p.totalDebt >= 0
    && (p.defaultCount.Some? ==> p.defaultCount.value >= 0)
  }

  /** A profile as first stored: no debt and no default yet. */
  function NewProfile(creditScore: int, creditLimit: Cents, availableCredit: Cents): (p: Profile)
    ensures p.totalDebt == 0 && p.defaultCount == Some(0)
    ensures !IsInDefault(p)
    ensures creditLimit > 0 ==> UtilizationRatio(p) == Some(0)
  {
    Profile(creditScore, creditLimit, availableCredit, 0, Some(0), None)
  }

  /** getCreditUtilizationRatio: null for a zero limit, otherwise debt / limit
      rounded half up to four decimals (a Rate, so 10000 is a ratio of 1). */
  function UtilizationRatio(p: Profile): (r: Option<Rate>)
    ensures r == None <==> p.creditLimit == 0
    ensures r.Some? && p.creditLimit > 0 && p.totalDebt >= 0 ==>
      && r.value >= 0
      && 2 * r.value * p.creditLimit - p.creditLimit <= 2 * p.totalDebt * One
      && 2 * p.totalDebt * One < 2 * r.value * p.creditLimit + p.creditLimit
  {
    if p.creditLimit == 0 then None
    else Some(DivHalfUp(p.totalDebt * One, p.creditLimit))
  }

  /** isCreditExhausted. */
  predicate IsCreditExhausted(p: Profile)
    ensures WithinBounds(p) ==> (IsCreditExhausted(p) <==> p.availableCredit == 0)
    ensures p.availableCredit > 0 ==> !IsCreditExhausted(p)
  {
    p.availableCredit <= 0
  }

  /** isInDefault: a recorded default count of at least three. */
  predicate IsInDefault(p: Profile)
    ensures p.defaultCount == None ==> !IsInDefault(p)
    ensures p.defaultCount == Some(DefaultThreshold) ==> IsInDefault(p)
    ensures p.defaultCount == Some(DefaultThreshold - 1) ==> !IsInDefault(p)
    ensures IsInDefault(p) ==> p.defaultCount.value >= 3
    ensures IsInDefault(p) <==> p.defaultCount != None && p.defaultCount.value >= DefaultThreshold
  {
    p.defaultCount != None && p.defaultCount.value >= DefaultThreshold
  }

  /** A debt within the limit gives a ratio between 0 and 1. */
  lemma {:induction false} RatioAtMostOne(p: Profile)
    requires 0 <= p.totalDebt <= p.creditLimit && p.creditLimit > 0
    ensures UtilizationRatio(p).Some?
    ensures 0 <= UtilizationRatio(p).value <= One
  {
    assert p.totalDebt * One <= One * p.creditLimit;
    DivHalfUpWithin(p.totalDebt * One, p.creditLimit, 0, One);
  }

  /** The converse fails: rounding to four decimals reports a ratio of
      exactly 1 for a debt just over the limit. */
  lemma RatioOneOverLimit()
    ensures var p := Profile(600, 30000, 0, 30001, Some(0), None);
      p.totalDebt > p.creditLimit && UtilizationRatio(p) == Some(One)
  {
    var p := Profile(600, 30000, 0, 30001, Some(0), None);
    assert DivHalfUp(p.totalDebt * One, p.creditLimit) == NearestUp(300010000, 30000);
  }

  /** A debt of at least the limit reports a ratio of at least 1. */
  lemma {:induction false} RatioAtLeastOne(p: Profile)
    requires p.creditLimit > 0 && p.totalDebt >= p.creditLimit
    ensures UtilizationRatio(p).Some? && UtilizationRatio(p).value >= One
  {
    assert One * p.creditLimit <= p.totalDebt * One;
    DivHalfUpAtLeast(p.totalDebt * One, p.creditLimit, One);
  }
}

=== FILE: credit_settings.dfy ===
/** CreditSettingsModel: the terms offered for one credit duration. */
module CreditSettings {
  import opened JavaLang
  import opened Decimal

  datatype Settings = Settings(
    durationMonths: int,
    commissionRate: Rate,
    minAmount: Option<Cents>,
    maxAmount: Option<Cents>,
    isActive: Option<bool>,
    description: Option<string>)

  /** isAmountValid: a null amount is invalid; otherwise each bound that is
      set must hold, both ends inclusive, and a bound that is not set is not
      checked. */
  function IsAmountValid(s: Settings, amount: Option<Cents>): (r: bool)
    ensures amount == None ==> !r
    ensures amount != None ==>
      (r <==> ((s.minAmount == None || s.minAmount.value <= amount.value)
               && (s.maxAmount == None || amount.value <= s.maxAmount.value)))
  {
    if amount == None then false
    else
      var valid := if s.minAmount != None then amount.value >= s.minAmount.value else true;
      if s.maxAmount != None then valid && amount.value <= s.maxAmount.value else valid
  }

  /** With both bounds set the valid amounts are exactly the closed range;
      with neither set every present amount is valid; with the bounds the
      wrong way round nothing is valid. */
  lemma AmountValidRange(s: Settings, a: Cents)
    ensures s.minAmount.Some? && s.maxAmount.Some? ==>
      (IsAmountValid(s, Some(a)) <==> s.minAmount.value <= a <= s.maxAmount.value)
    ensures s.minAmount == None && s.maxAmount == None ==> IsAmountValid(s, Some(a))
    ensures s.minAmount.Some? && s.maxAmount.Some? && s.minAmount.value > s.maxAmount.value ==>
      !IsAmountValid(s, Some(a))
  {
  }

  /** calculateTotalAmount: the principal plus the principal times the
      commission rate, exact at six decimals; null for a null principal. */
  function CalculateTotalAmount(s: Settings, principal: Option<Cents>): (r: Option<Micros>)
    ensures r.Some? <==> principal.Some?
    ensures r.Some? ==> r.value == principal.value * (One + s.commissionRate)
  {
    if principal == None then None
    else Some(CentsToMicros(principal.value) + principal.value * s.commissionRate)
  }

  /** With the declared rate bound (0, 1] a positive principal yields a total
      strictly above the principal and at most twice it. */
  lemma {:induction false} TotalAboveAndAtMostTwice(s: Settings, principal: Cents)
    requires 0 < s.commissionRate <= One && principal > 0
    ensures var t := CalculateTotalAmount(s, Some(principal)).value;
      CentsToMicros(principal) < t <= 2 * CentsToMicros(principal)
  {
    MulPos(principal, s.commissionRate);
    if s.commissionRate < One {
      MulPos(principal, One - s.commissionRate);
    }
    assert principal * One - principal * s.commissionRate == principal * (One - s.commissionRate);
  }
}

=== FILE: decimal.dfy ===
/** Fixed-scale decimal arithmetic as the entities use java.math.BigDecimal.
    Every money column has scale 2 and every rate column scale 4, so an amount
    is kept as its unscaled integer: a count of hundredths (Cents) or of
    ten-thousandths (Rate). Addition, subtraction and multiplication by an
    integer are exact on these; the only rounding the rules perform is
    BigDecimal.divide(divisor, scale, RoundingMode.HALF_UP), modelled by
    DivHalfUp on unscaled values. */
module Decimal {

  /** A BigDecimal of scale 2, counted in hundredths. */
  type Cents = int

  /** A BigDecimal of scale 4, counted in ten-thousandths (1.0000 is 10000). */
  type Rate = int

  const One: Rate := 10000

  /** A BigDecimal of scale 6, the exact product of Cents and a Rate, counted
      in millionths (one cent is 10000 of them). */
  type Micros = int

  /** The same amount at scale 6. */
  function CentsToMicros(c: Cents): Micros
  {
    c * One
  }

  /** The integer nearest to n / d, halves rounded away from zero
      (RoundingMode.HALF_UP). */
  function DivHalfUp(n: int, d: int): (q: int)
    requires d != 0
    ensures d > 0 && n >= 0 ==> q >= 0 && 2 * q * d - d <= 2 * n < 2 * q * d + d
    ensures d > 0 && n < 0 ==> q <= 0 && 2 * q * d - d < 2 * n <= 2 * q * d + d
  {
    if d > 0 then (if n >= 0 then NearestUp(n, d) else -(NearestUp(-n, d) as int))
    else (if n <= 0 then NearestUp(-n, -d) else -(NearestUp(n, -d) as int))
  }

  /** Rounding half up for a non-negative numerator and a positive divisor. */
  function NearestUp(n: nat, d: int): (q: nat)
    requires d > 0
    ensures 2 * q * d - d <= 2 * n < 2 * q * d + d
  {
    var m, dd := 2 * n + d, 2 * d;
    var q := m / dd;
    assert m == q * dd + m % dd;
    assert 2 * q * d == q * dd;
    q
  }

  lemma MulPos(x: int, d: int)
    requires x > 0 && d > 0
    ensures x * d > 0
  {
  }

  /** Cancelling a positive factor from a strict inequality. */
  lemma CancelLt(a: int, b: int, d: int)
    requires d > 0 && a * d < b * d
    ensures a < b
  {
    if a >= b {
      if a > b { MulPos(a - b, d); }
    }
  }

  /** A numerator of at least lo*d rounds to at least lo. */
  lemma DivHalfUpAtLeast(n: int, d: int, lo: int)
    requires d > 0 && 0 <= n && lo * d <= n
    ensures lo <= DivHalfUp(n, d)
  {
    var q := DivHalfUp(n, d);
    assert (2 * lo) * d <= 2 * n;
    assert 2 * n < (2 * q + 1) * d;
    CancelLt(2 * lo, 2 * q + 1, d);
  }

  /** A non-negative numerator of at most hi*d rounds to at most hi. */
  lemma DivHalfUpAtMost(n: int, d: int, hi: int)
    requires d > 0 && 0 <= n <= hi * d
    ensures DivHalfUp(n, d) <= hi
  {
    var q := DivHalfUp(n, d);
    assert (2 * q) * d - d <= 2 * n;
    assert 2 * n <= (2 * hi) * d;
    assert (2 * q) * d < (2 * hi + 1) * d + 1;
    assert (2 * q) * d < (2 * hi + 2) * d by {
      MulPos(1, d);
    }
    CancelLt(2 * q, 2 * hi + 2, d);
  }

  /** A non-negative quotient whose numerator lies in [lo*d, hi*d] lies in
      [lo, hi]: rounding never leaves the range the exact quotient is in. */
  lemma DivHalfUpWithin(n: int, d: int, lo: int, hi: int)
    requires d > 0 && 0 <= n && lo * d <= n <= hi * d
    ensures lo <= DivHalfUp(n, d) <= hi
  {
    DivHalfUpAtLeast(n, d, lo);
    DivHalfUpAtMost(n, d, hi);
  }

  /** Multiplying by a non-negative factor keeps an inequality. */
  lemma MulLe(a: int, b: int, n: int)
    requires a <= b && n >= 0
    ensures a * n <= b * n
  {
    if a < b && n > 0 { MulPos(b - a, n); }
  }

  // ----- sums of amounts -----

  /** The sum of a sequence of amounts, as a stream reduce with
      BigDecimal::add (or Integer::sum) from zero computes it. */
  function Sum(xs: seq<int>): int
  {
    if xs == [] then 0 else Sum(xs[..|xs| - 1]) + xs[|xs| - 1]
  }

  /** Appending one amount adds exactly that amount. */
  lemma SumAppend(xs: seq<int>, x: int)
    ensures Sum(xs + [x]) == Sum(xs) + x
  {
    assert (xs + [x])[..|xs|] == xs;
  }

  /** The sum of a concatenation is the sum of the parts. */
  lemma {:induction false} SumConcat(xs: seq<int>, ys: seq<int>)
    ensures Sum(xs + ys) == Sum(xs) + Sum(ys)
    decreases |ys|
  {
    if ys != [] {
      var init := ys[..|ys| - 1];
      assert xs + ys == (xs + init) + [ys[|ys| - 1]];
      SumConcat(xs, init);
      SumAppend(xs + init, ys[|ys| - 1]);
      assert Sum(ys) == Sum(init) + ys[|ys| - 1];
    } else {
      assert xs + ys == xs;
    }
  }

  /** Replacing one amount changes the sum by the difference. */
  lemma {:induction false} SumUpdate(xs: seq<int>, i: int, v: int)
    requires 0 <= i < |xs|
    ensures Sum(xs[i := v]) == Sum(xs) - xs[i] + v
  {
    var ys := xs[i := v];
    assert xs == xs[..i] + [xs[i]] + xs[i + 1..];
    assert ys == xs[..i] + [v] + xs[i + 1..];
    SumConcat(xs[..i] + [xs[i]], xs[i + 1..]);
    SumConcat(xs[..i] + [v], xs[i + 1..]);
    SumAppend(xs[..i], xs[i]);
    SumAppend(xs[..i], v);
  }

  /** The sum does not depend on the order of the amounts. */
  lemma {:induction false} SumPermutation(xs: seq<int>, ys: seq<int>)
    requires multiset(xs) == multiset(ys)
    ensures Sum(xs) == Sum(ys)
    decreases |xs|
  {
    if xs != [] {
      var x := xs[|xs| - 1];
      assert x in multiset(ys);
      var j :| 0 <= j < |ys| && ys[j] == x;
      var rest := ys[..j] + ys[j + 1..];
      assert ys == ys[..j] + [x] + ys[j + 1..];
      assert xs == xs[..|xs| - 1] + [x];
      assert multiset(xs) == multiset(xs[..|xs| - 1]) + multiset{x};
      assert multiset(ys) == multiset(ys[..j]) + multiset{x} + multiset(ys[j + 1..]);
      assert multiset(rest) == multiset(ys[..j]) + multiset(ys[j + 1..]);
      var a, b := multiset(xs[..|xs| - 1]), multiset(rest);
      assert a + multiset{x} == b + multiset{x};
      assert a == (a + multiset{x}) - multiset{x};
      assert b == (b + multiset{x}) - multiset{x};
      SumPermutation(xs[..|xs| - 1], rest);
      SumConcat(ys[..j] + [x], ys[j + 1..]);
      SumAppend(ys[..j], x);
      SumConcat(ys[..j], ys[j + 1..]);
    } else {
      assert |ys| == |multiset(ys)| == 0;
    }
  }

  /** Amounts each within [lo, hi] sum to within [lo*n, hi*n]. */
  lemma {:induction false} SumWithin(xs: seq<int>, lo: int, hi: int)
    requires forall k :: 0 <= k < |xs| ==> lo <= xs[k] <= hi
    ensures lo * |xs| <= Sum(xs) <= hi * |xs|
    decreases |xs|
  {
    if xs != [] {
      var init := xs[..|xs| - 1];
      SumWithin(init, lo, hi);
      assert Sum(xs) == Sum(init) + xs[|xs| - 1];
      assert lo * |xs| == lo * |init| + lo;
      assert hi * |xs| == hi * |init| + hi;
    }
  }
}

=== FILE: installment_plan.dfy ===
/** InstallmentPlanModel: a credit repaid in equal instalments. */
module InstallmentPlan {
  import opened JavaLang
  import opened Decimal
  import opened Clock

  datatype Plan = Plan(
    principalAmount: Cents,
    commissionRate: Rate,
    commissionAmount: Cents,
    totalAmount: Cents,
    installmentAmount: Cents,
    durationMonths: int,
    totalInstallments: Option<int>,
    paidInstallments: Option<int>,
    startDate: Option<Date>,
    endDate: Option<Date>,
    latePenalty: Cents)

  /** The declared bounds of the plan's columns: positive principal, total and
      instalment amounts, a commission rate in (0, 1], a duration of 1 to 36
      months, at least one instalment and a non-negative count paid (the
      counts may be null, which the bounds allow). */
  predicate WithinBounds(p: Plan)
  {
    && p.principalAmount >= 1 && p.totalAmount >= 1 && p.installmentAmount >= 1
    && 0 < p.commissionRate <= One && p.commissionAmount >= 0
    && 1 <= p.durationMonths <= 36
    && (p.totalInstallments.Some? ==> p.totalInstallments.value >= 1)
    && (p.paidInstallments.Some? ==> p.paidInstallments.value >= 0)
  }

  /** The documented derivation of the amounts: the commission is the
      principal times the rate, stored at two decimals, and the total is the
      principal plus the commission. */
  predicate Derived(p: Plan)
  {
    && p.commissionAmount == DivHalfUp(p.principalAmount * p.commissionRate, One)
    && p.totalAmount == p.principalAmount + p.commissionAmount
  }

  /** getRemainingAmount: the total less what the paid instalments cover; the
      unboxing of a null count of paid instalments throws. */
  function RemainingAmount(p: Plan): (r: Result<Cents>)
    ensures r.Thrown? <==> p.paidInstallments == None
    ensures r.Thrown? ==> r.error == NullPointer
    ensures r.Ok? ==> r.value + p.installmentAmount * p.paidInstallments.value == p.totalAmount
  {
    if p.paidInstallments == None then Thrown(NullPointer)
    else Ok(p.totalAmount - p.installmentAmount * p.paidInstallments.value)
  }

  /** isFullyPaid: at least as many instalments paid as there are; the
      unboxing of either null count throws. */
  function IsFullyPaid(p: Plan): (r: Result<bool>)
    ensures r.Thrown? <==> p.paidInstallments == None || p.totalInstallments == None
    ensures r.Thrown? ==> r.error == NullPointer
    ensures r.Ok? ==> (r.value <==> p.paidInstallments.value >= p.totalInstallments.value)
  {
    if p.paidInstallments == None || p.totalInstallments == None then Thrown(NullPointer)
    else Ok(p.paidInstallments.value >= p.totalInstallments.value)
  }

  /** isLate: not fully paid and today is after the end date. The end date
      is only read when the plan is not fully paid, and a null one then
      throws. */
  function IsLate(p: Plan, today: Date): (r: Result<bool>)
    ensures r.Thrown? <==> IsFullyPaid(p).Thrown? || (IsFullyPaid(p) == Ok(false) && p.endDate == None)
    ensures r.Thrown? ==> r.error == NullPointer
    ensures r == Ok(true) <==> IsFullyPaid(p) == Ok(false) && p.endDate != None && IsAfter(today, p.endDate.value)
  {
    var paid := IsFullyPaid(p);
    if paid.Thrown? then Thrown(paid.error)
    else if paid.value then Ok(false)
    else if p.endDate == None then Thrown(NullPointer)
    else Ok(IsAfter(today, p.endDate.value))
  }

  /** Before any instalment is paid the whole total remains. */
  lemma RemainingAtStart(p: Plan)
    requires p.paidInstallments == Some(0)
    ensures RemainingAmount(p) == Ok(p.totalAmount)
  {
  }

  /** Every further paid instalment strictly lowers the remaining amount, by
      exactly one instalment per instalment paid. */
  lemma {:induction false} RemainingDecreases(p: Plan, more: nat)
    requires p.installmentAmount >= 1 && more > 0 && p.paidInstallments.Some?
    ensures var q := p.(paidInstallments := Some(p.paidInstallments.value + more));
      && RemainingAmount(q).Ok? && RemainingAmount(p).Ok?
      && RemainingAmount(q).value == RemainingAmount(p).value - p.installmentAmount * more
      && RemainingAmount(q).value < RemainingAmount(p).value
  {
    var paid := p.paidInstallments.value;
    assert p.installmentAmount * (paid + more) == p.installmentAmount * paid + p.installmentAmount * more;
    MulPos(p.installmentAmount, more);
  }

  /** When the total is exactly the instalments, the plan is fully paid
      exactly when nothing remains to pay. */
  lemma {:induction false} FullyPaidIffNothingRemains(p: Plan)
    requires p.paidInstallments.Some? && p.totalInstallments.Some? && p.installmentAmount >= 1
    requires p.totalAmount == p.installmentAmount * p.totalInstallments.value
    ensures IsFullyPaid(p).Ok? && RemainingAmount(p).Ok?
    ensures IsFullyPaid(p).value <==> RemainingAmount(p).value <= 0
  {
    var a, paid, total := p.installmentAmount, p.paidInstallments.value, p.totalInstallments.value;
    assert RemainingAmount(p).value == a * (total - paid);
    if paid < total {
      MulPos(a, total - paid);
    } else if paid > total {
      MulPos(a, paid - total);
    }
  }

  /** A plan that is late is not fully paid, a fully paid plan is never late
      whatever the date, and a late plan stays late on every later day. */
  lemma LateOnlyWhenUnpaid(p: Plan, today: Date, later: Date)
    ensures IsLate(p, today) == Ok(true) ==> IsFullyPaid(p) == Ok(false)
    ensures IsFullyPaid(p) == Ok(true) ==> IsLate(p, today) == Ok(false)
    ensures IsLate(p, today) == Ok(true) && !IsBefore(later, today) ==> IsLate(p, later) == Ok(true)
  {
  }

  /** With the documented derivation and the declared rate bound, the total
      lies between the principal and twice the principal. */
  lemma {:induction false} TotalWithinTwicePrincipal(p: Plan)
    requires WithinBounds(p) && Derived(p)
    ensures p.principalAmount <= p.totalAmount <= 2 * p.principalAmount
  {
    var n := p.principalAmount * p.commissionRate;
    MulPos(p.principalAmount, p.commissionRate);
    assert n <= p.principalAmount * One by {
      assert p.principalAmount * One - n == p.principalAmount * (One - p.commissionRate);
      if p.commissionRate < One { MulPos(p.principalAmount, One - p.commissionRate); }
    }
    DivHalfUpWithin(n, One, 0, p.principalAmount);
  }
}

=== FILE: java_lang.dfy ===
/** The parts of java.lang the entity rules rely on: nullable references, the
    unchecked exceptions they raise, and the String operations they call
    (trim, isBlank, split, case conversion, contains, endsWith). */
module JavaLang {

  /** A nullable reference: None is Java's null. */
  datatype Option<+T> = None | Some(value: T)

  /** A java.util.UUID, compared by value. */
  type Uuid = int

  /** The unchecked exceptions the modelled methods can raise. */
  datatype Exception =
    | NullPointer
    | IllegalArgument(message: string)
    | Arithmetic            // BigDecimal.divide by zero
    | ArrayIndexOutOfBounds  // an array index out of range
    | StringIndexOutOfBounds // String.charAt or substring out of range
    | MissingFormatArgument // String.format with more specifiers than arguments

  /** What a value-returning Java call does: return a value or throw. */
  datatype Result<+T> = Ok(value: T) | Thrown(error: Exception)

  /** What a void Java call does: complete normally or throw. */
  datatype Completion = Normal | Abrupt(error: Exception)

  /** String.valueOf on a nullable String, as "+" and "%s" render it. */
  function Render(s: Option<string>): string
  {
    match s
    case None => "null"
    case Some(v) => v
  }

  /** A list of nullable elements with no null in it. */
  predicate AllPresent<T>(xs: seq<Option<T>>)
  {
    forall k :: 0 <= k < |xs| ==> xs[k].Some?
  }

  /** The elements of a list without nulls, unboxed. */
  function Values<T>(xs: seq<Option<T>>): (r: seq<T>)
    requires AllPresent(xs)
    ensures |r| == |xs| && forall k :: 0 <= k < |xs| ==> xs[k] == Some(r[k])
  {
    seq(|xs|, k requires 0 <= k < |xs| && AllPresent(xs) => xs[k].value)
  }

  lemma ValuesConcat<T>(xs: seq<Option<T>>, ys: seq<Option<T>>)
    requires AllPresent(xs) && AllPresent(ys)
    ensures AllPresent(xs + ys) && Values(xs + ys) == Values(xs) + Values(ys)
  {
    assert forall k :: 0 <= k < |xs + ys| ==> (xs + ys)[k] == if k < |xs| then xs[k] else ys[k - |xs|];
  }

  lemma PermutationKeepsPresent<T>(xs: seq<Option<T>>, ys: seq<Option<T>>)
    requires multiset(xs) == multiset(ys) && AllPresent(xs)
    ensures AllPresent(ys)
  {
    forall k | 0 <= k < |ys| ensures ys[k].Some? {
      assert ys[k] in multiset(xs);
    }
  }

  /** Each value occurs among the unboxed values as often as its box occurs
      in the list. */
  lemma {:induction false} ValuesCount<T>(xs: seq<Option<T>>, v: T)
    requires AllPresent(xs)
    ensures multiset(Values(xs))[v] == multiset(xs)[Some(v)]
    decreases |xs|
  {
    if xs == [] {
      assert Values(xs) == [];
    } else {
      var init, x := xs[..|xs| - 1], xs[|xs| - 1];
      assert xs == init + [x];
      assert AllPresent(init) by {
        assert forall k :: 0 <= k < |init| ==> init[k] == xs[k];
      }
      ValuesConcat(init, [x]);
      assert Values([x]) == [x.value];
      ValuesCount(init, v);
    }
  }

  /** Reordering a list reorders its unboxed values the same way. */
  lemma ValuesPermutation<T>(xs: seq<Option<T>>, ys: seq<Option<T>>)
    requires multiset(xs) == multiset(ys) && AllPresent(xs)
    ensures AllPresent(ys) && multiset(Values(xs)) == multiset(Values(ys))
  {
    PermutationKeepsPresent(xs, ys);
    forall v ensures multiset(Values(xs))[v] == multiset(Values(ys))[v] {
      ValuesCount(xs, v);
      ValuesCount(ys, v);
    }
  }

  /** A Java int: the value taken modulo 2^32 into [-2^31, 2^31). */
  function ToInt32(x: int): (r: int)
    ensures -0x8000_0000 <= r < 0x8000_0000
    ensures (x - r) % 0x1_0000_0000 == 0
    ensures -0x8000_0000 <= x < 0x8000_0000 ==> r == x
  {
    (x + 0x8000_0000) % 0x1_0000_0000 - 0x8000_0000
  }

  // ----- trim and blank tests -----

  /** String.trim removes every leading and trailing char whose code is at most U+0020. */
  predicate IsTrimmable(c: char)
  {
    c <= ' '
  }

  function TrimStart(s: string): (r: string)
    ensures |r| <= |s| && r == s[|s| - |r|..]
    ensures r == [] || !IsTrimmable(r[0])
    ensures forall i :: 0 <= i < |s| - |r| ==> IsTrimmable(s[i])
  {
    if s != [] && IsTrimmable(s[0]) then TrimStart(s[1..]) else s
  }

  function TrimEnd(s: string): (r: string)
    ensures |r| <= |s| && r == s[..|r|]
    ensures r == [] || !IsTrimmable(r[|r| - 1])
    ensures forall i :: |r| <= i < |s| ==> IsTrimmable(s[i])
  {
    if s != [] && IsTrimmable(s[|s| - 1]) then TrimEnd(s[..|s| - 1]) else s
  }

  /** String.trim(). */
  function Trim(s: string): (r: string)
    ensures r == [] || (!IsTrimmable(r[0]) && !IsTrimmable(r[|r| - 1]))
    ensures var k := |s| - |TrimStart(s)|; k + |r| <= |s| && r == s[k..k + |r|]
  {
    var t := TrimStart(s);
    var r := TrimEnd(t);
    assert r == s[|s| - |t|..|s| - |t| + |r|];
    assert r != [] ==> r[0] == t[0];
    r
  }

  predicate AllTrimmable(s: string)
  {
    forall i :: 0 <= i < |s| ==> IsTrimmable(s[i])
  }

  /** s.trim().isEmpty(): every char of s is trimmable. */
  lemma {:induction false} TrimEmptyIff(s: string)
    ensures Trim(s) == [] <==> AllTrimmable(s)
  {
    if Trim(s) == [] {
      assert TrimStart(s) == [];
    } else {
      var r := Trim(s);
      var k := |s| - |TrimStart(s)|;
      assert r[0] == s[k];
    }
  }

  /** Trimming is idempotent. */
  lemma TrimIdempotent(s: string)
    ensures Trim(Trim(s)) == Trim(s)
  {
    var r := Trim(s);
    if r != [] {
      assert TrimStart(r) == r;
      assert TrimEnd(r) == r;
    }
  }

  /** Character.isWhitespace: the ASCII controls TAB..CR and FS..US, the space,
      and the Unicode space, line and paragraph separators other than the
      non-breaking ones (U+00A0, U+2007, U+202F). */
  predicate IsWhitespace(c: char)
  {
    ('\t' <= c <= '\r') || ('\U{1C}' <= c <= ' ') || c == '\U{1680}'
    || ('\U{2000}' <= c <= '\U{2006}') || ('\U{2008}' <= c <= '\U{200A}')
    || c == '\U{2028}' || c == '\U{2029}' || c == '\U{205F}' || c == '\U{3000}'
  }

  /** String.isBlank(). */
  predicate IsBlank(s: string)
  {
    forall i :: 0 <= i < |s| ==> IsWhitespace(s[i])
  }

  // ----- case conversion (ASCII letters) -----

  function ToLowerChar(c: char): (r: char)
  {
    if 'A' <= c <= 'Z' then (c as int + 32) as char else c
  }

  function ToUpperChar(c: char): (r: char)
  {
    if 'a' <= c <= 'z' then (c as int - 32) as char else c
  }

  /** String.toLowerCase(). */
  function ToLower(s: string): (r: string)
    ensures |r| == |s|
    ensures forall i :: 0 <= i < |s| ==> r[i] == ToLowerChar(s[i])
  {
    seq(|s|, i requires 0 <= i < |s| => ToLowerChar(s[i]))
  }

  /** String.toUpperCase(). */
  function ToUpper(s: string): (r: string)
    ensures |r| == |s|
    ensures forall i :: 0 <= i < |s| ==> r[i] == ToUpperChar(s[i])
  {
    seq(|s|, i requires 0 <= i < |s| => ToUpperChar(s[i]))
  }

  /** Lower-casing twice is lower-casing once. */
  lemma ToLowerIdempotent(s: string)
    ensures ToLower(ToLower(s)) == ToLower(s)
  {
    var t := ToLower(s);
    forall i | 0 <= i < |s| ensures ToLower(t)[i] == t[i] {
      assert t[i] == ToLowerChar(s[i]);
    }
  }

  /** A string with no upper-case ASCII letter is its own lower case. */
  lemma ToLowerFixed(s: string)
    requires forall i :: 0 <= i < |s| ==> !('A' <= s[i] <= 'Z')
    ensures ToLower(s) == s
  {
  }

  /** String.equalsIgnoreCase on a non-null argument. */
  predicate EqualsIgnoreCase(a: string, b: string)
  {
    ToLower(a) == ToLower(b)
  }

  // ----- searching -----

  /** String.contains(t). */
  predicate Contains(s: string, t: string)
  {
    t <= s || (s != [] && Contains(s[1..], t))
  }

  /** String.endsWith(t). */
  predicate EndsWith(s: string, t: string)
  {
    |t| <= |s| && s[|s| - |t|..] == t
  }

  // ----- String.split on a one-char literal separator -----

  /** The pieces of s between occurrences of sep, empty pieces included. */
  function Pieces(s: string, sep: char): (r: seq<string>)
    ensures |r| >= 1
    ensures forall k :: 0 <= k < |r| ==> sep !in r[k]
  {
    if s == [] then [[]]
    else
      var rest := Pieces(s[1..], sep);
      if s[0] == sep then [[]] + rest else [[s[0]] + rest[0]] + rest[1..]
  }

  /** The pieces joined back with the separator. */
  function Join(parts: seq<string>, sep: char): string
  {
    if |parts| <= 1 then (if parts == [] then [] else parts[0])
    else parts[0] + [sep] + Join(parts[1..], sep)
  }

  /** Splitting and joining again gives back the string. */
  lemma {:induction false} JoinPieces(s: string, sep: char)
    ensures Join(Pieces(s, sep), sep) == s
  {
    if s != [] {
      JoinPieces(s[1..], sep);
      var rest := Pieces(s[1..], sep);
      if s[0] == sep {
        assert Pieces(s, sep) == [[]] + rest;
      } else {
        assert Pieces(s, sep) == [[s[0]] + rest[0]] + rest[1..];
        if |rest| > 1 {
          assert Join([[s[0]] + rest[0]] + rest[1..], sep)
              == [s[0]] + (rest[0] + [sep] + Join(rest[1..], sep));
        }
      }
    }
  }

  function DropTrailingEmpty(parts: seq<string>): (r: seq<string>)
    ensures |r| <= |parts| && r == parts[..|r|]
    ensures r == [] || r[|r| - 1] != []
    ensures forall k :: |r| <= k < |parts| ==> parts[k] == []
  {
    if parts != [] && parts[|parts| - 1] == [] then DropTrailingEmpty(parts[..|parts| - 1]) else parts
  }

  /** String.split(String.valueOf(sep)) with limit 0: no match gives the string
      itself, otherwise the pieces with trailing empty ones removed. */
  function Split(s: string, sep: char): seq<string>
  {
    if sep !in s then [s] else DropTrailingEmpty(Pieces(s, sep))
  }

  /** The prefix of s before its first sep (all of s when there is none). */
  function Before(s: string, sep: char): (r: string)
    ensures sep !in r
    ensures r <= s
    ensures |r| < |s| ==> s[|r|] == sep
  {
    if s == [] || s[0] == sep then [] else [s[0]] + Before(s[1..], sep)
  }

  lemma {:induction false} PiecesHead(s: string, sep: char)
    ensures Pieces(s, sep)[0] == Before(s, sep)
  {
    if s != [] && s[0] != sep {
      PiecesHead(s[1..], sep);
    }
  }

  /** All pieces are empty exactly when s is made of separators only. */
  lemma {:induction false} PiecesAllEmpty(s: string, sep: char)
    ensures (forall k :: 0 <= k < |Pieces(s, sep)| ==> Pieces(s, sep)[k] == [])
        <==> (forall i :: 0 <= i < |s| ==> s[i] == sep)
  {
    if s != [] {
      PiecesAllEmpty(s[1..], sep);
      var rest := Pieces(s[1..], sep);
      var p := Pieces(s, sep);
      if s[0] == sep {
        assert p == [[]] + rest;
        assert AllEmpty(p) <==> AllEmpty(rest) by {
          assert forall k :: 1 <= k < |p| ==> p[k] == rest[k - 1];
          assert forall k :: 0 <= k < |rest| ==> rest[k] == p[k + 1];
        }
        assert AllSep(s, sep) <==> AllSep(s[1..], sep) by {
          assert forall i :: 1 <= i < |s| ==> s[i] == s[1..][i - 1];
        }
      } else {
        assert p[0] == [s[0]] + rest[0];
      }
    }
  }

  predicate AllEmpty(parts: seq<string>)
  {
    forall k :: 0 <= k < |parts| ==> parts[k] == []
  }

  predicate AllSep(s: string, sep: char)
  {
    forall i :: 0 <= i < |s| ==> s[i] == sep
  }

  /** split(...) is empty exactly when s is non-empty and made of separators
      only; otherwise its first element is the part before the first separator. */
  lemma SplitHead(s: string, sep: char)
    ensures |Split(s, sep)| == 0 <==> s != [] && forall i :: 0 <= i < |s| ==> s[i] == sep
    ensures |Split(s, sep)| > 0 ==> Split(s, sep)[0] == Before(s, sep)
  {
    PiecesHead(s, sep);
    PiecesAllEmpty(s, sep);
    if sep !in s {
      assert Before(s, sep) == s;
      assert s != [] ==> s[0] != sep;
    } else {
      var p := Pieces(s, sep);
      var r := DropTrailingEmpty(p);
      if r == [] {
        assert forall k :: 0 <= k < |p| ==> p[k] == [];
      } else {
        assert r[0] == p[0];
        assert r[|r| - 1] == p[|r| - 1] != [];
      }
    }
  }

  /** Splitting "a" + sep + "b" where neither part holds sep and b is non-empty
      gives back exactly [a, b]. */
  lemma SplitPair(a: string, b: string, sep: char)
    requires sep !in a && sep !in b && b != []
    ensures Split(a + [sep] + b, sep) == [a, b]
  {
    PiecesOfFree(b, sep);
    PiecesPair(a, b, sep);
    var s := a + [sep] + b;
    assert s[|a|] == sep;
  }

  lemma {:induction false} PiecesOfFree(s: string, sep: char)
    requires sep !in s
    ensures Pieces(s, sep) == [s]
  {
    if s != [] {
      PiecesOfFree(s[1..], sep);
      assert [s[0]] + s[1..] == s;
    }
  }

  lemma {:induction false} PiecesPair(a: string, b: string, sep: char)
    requires sep !in a && Pieces(b, sep) == [b]
    ensures Pieces(a + [sep] + b, sep) == [a, b]
  {
    if a == [] {
      assert a + [sep] + b == [sep] + b;
      assert ([sep] + b)[1..] == b;
    } else {
      PiecesPair(a[1..], b, sep);
      var s := a + [sep] + b;
      assert s[1..] == a[1..] + [sep] + b;
      assert [a[0]] + a[1..] == a;
    }
  }

  // ----- String.format with %s conversions, and replaceAll on a literal -----

  /** The number of "%s" conversions in a format string. */
  function Specifiers(fmt: string): nat
  {
    if |fmt| >= 2 && fmt[..2] == "%s" then 1 + Specifiers(fmt[2..])
    else if fmt == [] then 0
    else Specifiers(fmt[1..])
  }

  /** String.format whose only conversions are "%s": each one takes the next
      argument (already rendered as a String), other characters are copied,
      and a conversion with no argument left throws
      MissingFormatArgumentException.  Extra arguments are ignored. */
  function Format(fmt: string, args: seq<string>): (r: Result<string>)
    ensures r.Thrown? ==> r.error == MissingFormatArgument
  {
    if |fmt| >= 2 && fmt[..2] == "%s" then
      if args == [] then Thrown(MissingFormatArgument)
      else match Format(fmt[2..], args[1..])
        case Ok(rest) => Ok(args[0] + rest)
        case Thrown(e) => Thrown(e)
    else if fmt == [] then Ok([])
    else match Format(fmt[1..], args)
      case Ok(rest) => Ok([fmt[0]] + rest)
      case Thrown(e) => Thrown(e)
  }

  /** Formatting fails exactly when there are more conversions than arguments. */
  lemma {:induction false} FormatFailsIff(fmt: string, args: seq<string>)
    ensures Format(fmt, args).Thrown? <==> Specifiers(fmt) > |args|
  {
    if |fmt| >= 2 && fmt[..2] == "%s" {
      if args != [] {
        FormatFailsIff(fmt[2..], args[1..]);
      }
    } else if fmt != [] {
      FormatFailsIff(fmt[1..], args);
    }
  }

  /** A conversion at the head of the format takes the first argument. */
  lemma FormatConversion(rest: string, a: string, args: seq<string>, t: string)
    requires Format(rest, args) == Ok(t)
    ensures Format("%s" + rest, [a] + args) == Ok(a + t)
  {
    var fmt := "%s" + rest;
    assert fmt[..2] == "%s" && fmt[2..] == rest;
    assert ([a] + args)[1..] == args;
  }

  /** Text without '%' at the head of the format is copied unchanged. */
  lemma {:induction false} FormatText(text: string, rest: string, args: seq<string>, t: string)
    requires '%' !in text && Format(rest, args) == Ok(t)
    ensures Format(text + rest, args) == Ok(text + t)
  {
    if text != [] {
      var fmt := text + rest;
      assert fmt[0] == text[0] && fmt[1..] == text[1..] + rest;
      assert !(|fmt| >= 2 && fmt[..2] == "%s");
      FormatText(text[1..], rest, args, t);
      assert [text[0]] + (text[1..] + t) == text + t;
    } else {
      assert text + rest == rest && text + t == t;
    }
  }

  lemma SpecifiersConversion(rest: string)
    ensures Specifiers("%s" + rest) == 1 + Specifiers(rest)
  {
    var fmt := "%s" + rest;
    assert fmt[..2] == "%s" && fmt[2..] == rest;
  }

  lemma {:induction false} SpecifiersText(text: string, rest: string)
    requires '%' !in text
    ensures Specifiers(text + rest) == Specifiers(rest)
  {
    if text != [] {
      var fmt := text + rest;
      assert fmt[0] == text[0] && fmt[1..] == text[1..] + rest;
      assert !(|fmt| >= 2 && fmt[..2] == "%s");
      SpecifiersText(text[1..], rest);
    } else {
      assert text + rest == rest;
    }
  }

  /** String.replaceAll(pat, rep) for a pattern with no regular-expression
      metacharacter: matches are replaced left to right without overlap. */
  function ReplaceAll(s: string, pat: string, rep: string): string
    requires pat != []
  {
    if s == [] then []
    else if pat <= s then rep + ReplaceAll(s[|pat|..], pat, rep)
    else [s[0]] + ReplaceAll(s[1..], pat, rep)
  }

  /** A string without the pattern is left as it is. */
  lemma {:induction false} ReplaceAllAbsent(s: string, pat: string, rep: string)
    requires pat != [] && !Contains(s, pat)
    ensures ReplaceAll(s, pat, rep) == s
  {
    if s != [] {
      ReplaceAllAbsent(s[1..], pat, rep);
      assert [s[0]] + s[1..] == s;
    }
  }
}

=== FILE: notification.dfy ===
/** NotificationModel: a message to a user, read or not, and its expiry. */
module Notification {
  import opened JavaLang
  import opened Clock

  const PriorityNormal: string := "NORMAL"
  const PriorityHigh: string := "HIGH"
  const PriorityUrgent: string := "URGENT"
  const AppChannel: string := "APP"

  /** An unread notification sent more than this many days ago has expired. */
  const ExpiryDays: int := 30

  class Notification {
    var userId: Uuid
    var title: string
    var priority: Option<string>
    var channel: Option<string>
    var isRead: Option<bool>
    var readAt: Option<DateTime>
    var sentAt: Option<DateTime>

    /** new NotificationModel(): NORMAL priority, in-app, unread, not sent. */
    constructor (userId: Uuid, title: string)
      ensures this.userId == userId && this.title == title
      ensures priority == Some(PriorityNormal) && channel == Some(AppChannel)
      ensures isRead == Some(false) && readAt == None && sentAt == None
      ensures !IsHighPriority() && !IsSent()
      ensures forall now :: IsExpired(now) == Ok(false)
    {
      this.userId := userId;
      this.title := title;
      priority := Some(PriorityNormal);
      channel := Some(AppChannel);
      isRead := Some(false);
      readAt := None;
      sentAt := None;
    }

    /** markAsRead: read now; marking again keeps it read and moves readAt. */
    method MarkAsRead(now: DateTime)
      modifies this`isRead, this`readAt
      ensures isRead == Some(true) && readAt == Some(now)
      ensures forall t :: IsExpired(t) == Ok(false)
    {
      isRead := Some(true);
      readAt := Some(now);
    }

    /** isHighPriority: the priority is exactly HIGH or URGENT. */
    predicate IsHighPriority()
      reads this
      ensures priority == None || priority == Some(PriorityNormal) ==> !IsHighPriority()
      ensures IsHighPriority() <==> priority != None && (priority.value == "HIGH" || priority.value == "URGENT")
    {
      priority == Some(PriorityHigh) || priority == Some(PriorityUrgent)
    }

    /** isSent: a send time is recorded. */
    predicate IsSent()
      reads this
      ensures IsSent() <==> sentAt != None
    {
      sentAt != None
    }

    /** isExpired: unread, sent, and sent more than 30 days before now
        (sentAt + 30 days strictly before now); !isRead unboxes the flag
        first, so a null flag throws. */
    function IsExpired(now: DateTime): (r: Result<bool>)
      reads this
      ensures r.Thrown? <==> isRead == None
      ensures r.Thrown? ==> r.error == NullPointer
      ensures r == Ok(true) <==>
        (isRead == Some(false) && sentAt != None && now - sentAt.value > ExpiryDays * SecondsPerDay)
      ensures r == Ok(true) ==> IsSent()
    {
      match isRead
      case None => Thrown(NullPointer)
      case Some(read) => Ok(!read && sentAt != None && PlusDays(sentAt.value, ExpiryDays) < now)
    }
  }

  /** Expiry is monotone in time: a notification expired at some instant is
      still expired at every later one while nothing about it changes. */
  lemma ExpiredStaysExpired(n: Notification, t: DateTime, later: DateTime)
    requires n.IsExpired(t) == Ok(true) && t <= later
    ensures n.IsExpired(later) == Ok(true)
  {
  }
}

=== FILE: order.dfy ===
/** OrderModel: an order, its status and its total. */
module Order {
  import opened JavaLang
  import opened Decimal
  import opened Clock
  import OrderItem

  const Created: string := "CREATED"
  const Processing: string := "PROCESSING"
  const Delivered: string := "DELIVERED"
  const PaymentPending: string := "PENDING"
  const Paid: string := "PAID"

  /** The reduce of the line totals from zero with BigDecimal::add: the sum
      of the totals, or a NullPointerException when a line has no total. */
  function LinesTotal(totals: seq<Option<Cents>>): (r: Result<Cents>)
    ensures r.Thrown? <==> !AllPresent(totals)
    ensures r.Thrown? ==> r.error == NullPointer
    ensures totals == [] ==> r == Ok(0)
  {
    if AllPresent(totals) then Ok(Sum(Values(totals))) else Thrown(NullPointer)
  }

  /** The total does not depend on the order of the lines. */
  lemma {:induction false} LinesTotalPermutation(totals: seq<Option<Cents>>, reordered: seq<Option<Cents>>)
    requires multiset(totals) == multiset(reordered)
    ensures LinesTotal(totals) == LinesTotal(reordered)
  {
    if AllPresent(totals) {
      ValuesPermutation(totals, reordered);
      SumPermutation(Values(totals), Values(reordered));
    } else if AllPresent(reordered) {
      ValuesPermutation(reordered, totals);
    }
  }

  /** Appending a line raises the total by exactly that line's total. */
  lemma {:induction false} LinesTotalAppend(totals: seq<Option<Cents>>, line: Cents)
    requires AllPresent(totals)
    ensures LinesTotal(totals + [Some(line)]) == Ok(LinesTotal(totals).value + line)
  {
    ValuesConcat(totals, [Some(line)]);
    assert Values([Some(line)]) == [line];
    SumAppend(Values(totals), line);
  }

  /** The line totals as the order reads them. */
  function TotalPrices(items: seq<OrderItem.Item>): (r: seq<Option<Cents>>)
    reads items
    ensures |r| == |items| && forall k :: 0 <= k < |items| ==> r[k] == items[k].totalPrice
  {
    seq(|items|, k requires 0 <= k < |items| reads items => items[k].totalPrice)
  }

  class Order {
    var userId: Uuid
    var totalAmount: Cents
    var statusCode: Option<string>
    var paymentStatusCode: Option<string>
    var completedAt: Option<DateTime>
    var items: Option<seq<OrderItem.Item>>

    /** A new order is created, unpaid, cancellable and has no lines. */
    constructor (userId: Uuid, totalAmount: Cents)
      ensures this.userId == userId && this.totalAmount == totalAmount
      ensures statusCode == Some(Created) && paymentStatusCode == Some(PaymentPending)
      ensures completedAt == None && items == Some([])
      ensures IsCancellable() && !IsPaid()
    {
      this.userId := userId;
      this.totalAmount := totalAmount;
      statusCode := Some(Created);
      paymentStatusCode := Some(PaymentPending);
      completedAt := None;
      items := Some([]);
    }

    /** isPaid: the payment status is exactly PAID. */
    predicate IsPaid()
      reads this
      ensures paymentStatusCode == None ==> !IsPaid()
      ensures paymentStatusCode == Some(PaymentPending) ==> !IsPaid()
      ensures IsPaid() <==> paymentStatusCode != None && paymentStatusCode.value == "PAID"
    {
      paymentStatusCode == Some(Paid)
    }

    /** isCancellable: created or processing. */
    predicate IsCancellable()
      reads this
      ensures statusCode == None || statusCode == Some(Delivered) ==> !IsCancellable()
      ensures IsCancellable() <==> statusCode != None && (statusCode.value == "CREATED" || statusCode.value == "PROCESSING")
    {
      statusCode == Some(Created) || statusCode == Some(Processing)
    }

    /** calculateTotalAmount: the total becomes the sum of the line totals
        (zero for no line); a missing list leaves it unchanged, and a line
        without a total throws before anything is stored. */
    method CalculateTotalAmount() returns (c: Completion)
      modifies this`totalAmount
      ensures items == None ==> c == Normal && totalAmount == old(totalAmount)
      ensures items != None ==>
        var r := LinesTotal(TotalPrices(items.value));
        && (r.Thrown? ==> c == Abrupt(r.error) && totalAmount == old(totalAmount))
        && (r.Ok? ==> c == Normal && totalAmount == r.value)
    {
      if items == None {
        return Normal;
      }
      var r := LinesTotal(TotalPrices(items.value));
      if r.Thrown? {
        return Abrupt(r.error);
      }
      totalAmount := r.value;
      c := Normal;
    }

    /** markAsCompleted: delivered now, and so no longer cancellable; the
        payment status is untouched. */
    method MarkAsCompleted(now: DateTime)
      modifies this`statusCode, this`completedAt
      ensures statusCode == Some(Delivered) && completedAt == Some(now)
      ensures !IsCancellable()
    {
      statusCode := Some(Delivered);
      completedAt := Some(now);
    }
  }
}

=== FILE: order_item.dfy ===
/** OrderItemModel: one line of an order. */
module OrderItem {
  import opened JavaLang
  import opened Decimal

  const CreditMethod: string := "CREDIT"

  /** The declared bounds of a line: a quantity of 1 to 999 and a unit price
      of at least 0.01. */
  predicate WithinBounds(quantity: int, unitPrice: Cents)
  {
    1 <= quantity <= 999 && unitPrice >= 1
  }

  class Item {
    var productId: Uuid
    var quantity: Option<int>
    var unitPrice: Option<Cents>
    var totalPrice: Option<Cents>
    var paymentMethodCode: Option<string>

    constructor (productId: Uuid, quantity: Option<int>, unitPrice: Option<Cents>)
      ensures this.productId == productId && this.quantity == quantity && this.unitPrice == unitPrice
      ensures totalPrice == None && paymentMethodCode == None
      ensures !IsPriceConsistent() && !IsCreditPayment()
    {
      this.productId := productId;
      this.quantity := quantity;
      this.unitPrice := unitPrice;
      totalPrice := None;
      paymentMethodCode := None;
    }

    /** isCreditPayment: the payment method is exactly CREDIT. */
    predicate IsCreditPayment()
      reads this
      ensures paymentMethodCode == None ==> !IsCreditPayment()
      ensures IsCreditPayment() <==> paymentMethodCode != None && paymentMethodCode.value == "CREDIT"
    {
      paymentMethodCode == Some(CreditMethod)
    }

    /** isPriceConsistent: false when any of the three amounts is missing;
        otherwise the total equals unit price times quantity (compareTo, so
        the scale does not matter). */
    predicate IsPriceConsistent()
      reads this
      ensures unitPrice == None || quantity == None || totalPrice == None ==> !IsPriceConsistent()
      ensures IsPriceConsistent() && quantity.value == 1 ==> totalPrice == unitPrice
      ensures IsPriceConsistent() && quantity.value == 0 ==> totalPrice == Some(0)
      ensures IsPriceConsistent() ==> totalPrice.value == unitPrice.value * quantity.value
      ensures unitPrice != None && quantity != None && totalPrice == Some(unitPrice.value * quantity.value) ==>
        IsPriceConsistent()
    {
      if unitPrice == None || quantity == None || totalPrice == None then false
      else totalPrice.value == unitPrice.value * quantity.value
    }

    /** calculateTotalPrice: with a quantity and a unit price the total
        becomes their product, so the line is consistent; otherwise nothing
        changes. */
    method CalculateTotalPrice()
      modifies this`totalPrice
      ensures quantity != None && unitPrice != None ==>
        totalPrice == Some(unitPrice.value * quantity.value) && IsPriceConsistent()
      ensures quantity == None || unitPrice == None ==> totalPrice == old(totalPrice)
      ensures quantity != None && unitPrice != None && WithinBounds(quantity.value, unitPrice.value) ==>
        totalPrice.value >= unitPrice.value
    {
      if quantity != None && unitPrice != None {
        totalPrice := Some(unitPrice.value * quantity.value);
        if WithinBounds(quantity.value, unitPrice.value) {
          MulLe(1, quantity.value, unitPrice.value);
        }
      }
    }
  }
}

=== FILE: payment_schedule.dfy ===
/** PaymentScheduleModel: one instalment due date of a plan, paid in one or
    more payments. */
module PaymentSchedule {
  import opened JavaLang
  import opened Decimal
  import opened Clock

  class Schedule {
    var installmentNumber: int
    var dueDate: Date
    var amount: Cents
    var paidAmount: Cents
    var penaltyAmount: Cents
    var paidAt: Option<DateTime>

    /** A new schedule: nothing paid, no penalty. */
    constructor (installmentNumber: int, dueDate: Date, amount: Cents)
      ensures this.installmentNumber == installmentNumber && this.dueDate == dueDate
      ensures this.amount == amount && paidAmount == 0 && penaltyAmount == 0 && paidAt == None
      ensures RemainingAmount() == amount
      ensures amount > 0 ==> !IsFullyPaid()
    {
      this.installmentNumber := installmentNumber;
      this.dueDate := dueDate;
      this.amount := amount;
      paidAmount := 0;
      penaltyAmount := 0;
      paidAt := None;
    }

    /** getRemainingAmount: what is still due; negative after an overpayment. */
    function RemainingAmount(): (r: Cents)
      reads this
      ensures paidAmount + r == amount
    {
      amount - paidAmount
    }

    /** isFullyPaid: the paid amount has reached the amount due, i.e. nothing
        remains to pay. */
    function IsFullyPaid(): (r: bool)
      reads this
      ensures r <==> RemainingAmount() <= 0
    {
      paidAmount >= amount
    }

    /** isOverdue: something remains to pay and the due date is strictly
        before today. */
    function IsOverdue(today: Date): (r: bool)
      reads this
      ensures r <==> RemainingAmount() > 0 && IsBefore(dueDate, today)
    {
      !IsFullyPaid() && IsBefore(dueDate, today)
    }

    /** markAsPaid: the payment is added to what was paid, whatever its sign
        or size, and stamped with the current time; a null payment throws
        NullPointerException in add before anything changes. */
    method MarkAsPaid(amountPaid: Option<Cents>, now: DateTime) returns (c: Completion)
      modifies this`paidAmount, this`paidAt
      ensures c == Normal <==> amountPaid != None
      ensures amountPaid == None ==> c == Abrupt(NullPointer) && unchanged(this)
      ensures amountPaid != None ==> paidAmount == old(paidAmount) + amountPaid.value && paidAt == Some(now)
      ensures amount == old(amount) && penaltyAmount == old(penaltyAmount)
      ensures dueDate == old(dueDate) && installmentNumber == old(installmentNumber)
      ensures amountPaid != None ==> RemainingAmount() == old(RemainingAmount()) - amountPaid.value
      ensures amountPaid != None && amountPaid.value >= 0 ==> paidAmount >= old(paidAmount)
      ensures amountPaid != None && amountPaid.value >= old(RemainingAmount()) ==>
        IsFullyPaid() && forall today :: !IsOverdue(today)
    {
      if amountPaid == None {
        return Abrupt(NullPointer);
      }
      paidAmount := paidAmount + amountPaid.value;
      paidAt := Some(now);
      c := Normal;
    }
  }
}

=== FILE: payment_transaction.dfy ===
/** PaymentTransactionModel: one payment attempt and its lifecycle
    PENDING -> SUCCESS | FAILED | REFUNDED. */
module PaymentTransaction {
  import opened JavaLang
  import opened Decimal
  import opened Clock

  const Pending: string := "PENDING"
  const Success: string := "SUCCESS"
  const Failed: string := "FAILED"
  const Refunded: string := "REFUNDED"

  /** The message processRefund throws with. */
  const InvalidRefund: string := "Montant de remboursement invalide"

  /** The raw JSON answer of the payment gateway, kept as a whole. */
  datatype GatewayResponse = GatewayResponse(json: string)

  class Transaction {
    var amount: Cents
    var paymentMethodCode: string
    var statusCode: string
    var externalTransactionId: Option<string>
    var gatewayResponse: Option<GatewayResponse>
    var processedAt: Option<DateTime>
    var failureReason: Option<string>
    var refundedAt: Option<DateTime>
    var refundAmount: Cents

    /** isRefunded: some amount has been given back. */
    predicate IsRefunded()
      reads this
      ensures refundAmount == 0 ==> !IsRefunded()
      ensures IsRefunded() <==> refundAmount >= 1
    {
      refundAmount > 0
    }

    /** A new transaction is pending, with nothing refunded. */
    constructor (amount: Cents, paymentMethodCode: string)
      ensures this.amount == amount && this.paymentMethodCode == paymentMethodCode
      ensures statusCode == Pending && refundAmount == 0 && !IsRefunded()
      ensures externalTransactionId == None && gatewayResponse == None
      ensures processedAt == None && failureReason == None && refundedAt == None
    {
      this.amount := amount;
      this.paymentMethodCode := paymentMethodCode;
      statusCode := Pending;
      externalTransactionId := None;
      gatewayResponse := None;
      processedAt := None;
      failureReason := None;
      refundedAt := None;
      refundAmount := 0;
    }

    /** markAsSuccessful, from whatever status the transaction is in. */
    method MarkAsSuccessful(externalId: Option<string>, response: Option<GatewayResponse>, now: DateTime)
      modifies this`statusCode, this`externalTransactionId, this`gatewayResponse, this`processedAt, this`failureReason
      ensures statusCode == Success
      ensures externalTransactionId == externalId && gatewayResponse == response
      ensures processedAt == Some(now) && failureReason == None
      ensures amount == old(amount) && paymentMethodCode == old(paymentMethodCode)
      ensures refundAmount == old(refundAmount) && refundedAt == old(refundedAt)
    {
      statusCode := Success;
      externalTransactionId := externalId;
      gatewayResponse := response;
      processedAt := Some(now);
      failureReason := None;
    }

    /** markAsFailed, from whatever status the transaction is in. */
    method MarkAsFailed(reason: Option<string>, now: DateTime)
      modifies this`statusCode, this`processedAt, this`failureReason
      ensures statusCode == Failed && processedAt == Some(now) && failureReason == reason
      ensures amount == old(amount) && paymentMethodCode == old(paymentMethodCode)
      ensures refundAmount == old(refundAmount) && refundedAt == old(refundedAt)
      ensures externalTransactionId == old(externalTransactionId)
      ensures gatewayResponse == old(gatewayResponse)
    {
      statusCode := Failed;
      processedAt := Some(now);
      failureReason := reason;
    }

    /** processRefund: a null refund throws NullPointerException on its
        compareTo and an out-of-range one throws IllegalArgumentException,
        both before anything changes; an accepted one replaces (does not add
        to) the refunded amount and marks the transaction REFUNDED, whatever
        its status was. */
    method ProcessRefund(refund: Option<Cents>, now: DateTime) returns (c: Completion)
      modifies this`refundAmount, this`refundedAt, this`statusCode
      ensures refund == None ==> c == Abrupt(NullPointer)
      ensures c == Normal <==> refund != None && 0 < refund.value <= amount
      ensures refund != None && c != Normal ==> c == Abrupt(IllegalArgument(InvalidRefund))
      ensures c != Normal ==> unchanged(this)
      ensures c == Normal ==>
        && refundAmount == refund.value && refundedAt == Some(now) && statusCode == Refunded
        && IsRefunded() && 0 < refundAmount <= amount
      ensures amount == old(amount) && paymentMethodCode == old(paymentMethodCode)
      ensures processedAt == old(processedAt) && failureReason == old(failureReason)
      ensures externalTransactionId == old(externalTransactionId)
      ensures gatewayResponse == old(gatewayResponse)
    {
      if refund == None {
        return Abrupt(NullPointer);
      }
      if refund.value <= 0 || refund.value > amount {
        return Abrupt(IllegalArgument(InvalidRefund));
      }
      refundAmount := refund.value;
      refundedAt := Some(now);
      statusCode := Refunded;
      c := Normal;
    }
  }
}

=== FILE: product.dfy ===
/** ProductModel: a catalogue product with its stock, prices, counters, tags,
    running average rating and images. */
module Product {
  import opened JavaLang
  import opened Decimal
  import opened Clock
  import BaseModel
  import opened ProductImage

  const OutOfStock: string := "Rupture"
  const LowStock: string := "Stock faible"
  const InStock: string := "En stock"

  /** How long a product counts as new after its creation. */
  const NewProductDays: int := 30

  /** A null counter read as zero. */
  function CountOrZero(count: Option<int>): int
  {
    if count == None then 0 else count.value
  }

  // ----- images -----

  /** The index of the first image flagged primary (Boolean.TRUE.equals),
      or the number of images when there is none. */
  function FirstPrimary(images: seq<Image>): (k: nat)
    ensures k <= |images|
    ensures forall j :: 0 <= j < k ==> images[j].isPrimary != Some(true)
    ensures k < |images| ==> images[k].isPrimary == Some(true)
  {
    if images == [] || images[0].isPrimary == Some(true) then 0
    else 1 + FirstPrimary(images[1..])
  }

  /** getMainImageUrl: the URL of the first image flagged primary, or null
      when no image is primary (or that image has no URL); streaming a null
      image list throws. */
  function MainImageUrl(images: Option<seq<Image>>): (r: Result<Option<string>>)
    ensures r.Thrown? <==> images == None
    ensures r.Thrown? ==> r.error == NullPointer
    ensures r.Ok? && (forall j :: 0 <= j < |images.value| ==> images.value[j].isPrimary != Some(true)) ==>
      r.value == None
    ensures r.Ok? ==> forall k :: 0 <= k < |images.value| ==>
      (images.value[k].isPrimary == Some(true) && (forall j :: 0 <= j < k ==> images.value[j].isPrimary != Some(true)))
      ==> r.value == images.value[k].imageUrl
  {
    if images == None then Thrown(NullPointer)
    else
      var k := FirstPrimary(images.value);
      Ok(if k < |images.value| then images.value[k].imageUrl else None)
  }

  predicate AllPositioned(images: seq<Image>)
  {
    forall k :: 0 <= k < |images| ==> images[k].position.Some?
  }

  predicate SortedByPosition(images: seq<Image>)
    requires AllPositioned(images)
  {
    forall i, j :: 0 <= i < j < |images| ==> images[i].position.value <= images[j].position.value
  }

  /** Inserts an image after every image whose position is not greater. */
  function InsertByPosition(sorted: seq<Image>, img: Image): (r: seq<Image>)
    requires AllPositioned(sorted) && img.position.Some?
    ensures AllPositioned(r)
    ensures multiset(r) == multiset(sorted) + multiset{img}
    decreases |sorted|
  {
    if sorted == [] || sorted[|sorted| - 1].position.value <= img.position.value then
      sorted + [img]
    else
      var init, last := sorted[..|sorted| - 1], sorted[|sorted| - 1];
      assert sorted == init + [last];
      var r0 := InsertByPosition(init, img);
      assert forall k :: 0 <= k < |r0| ==> (r0 + [last])[k] == r0[k];
      r0 + [last]
  }

  /** Inserting an image below a bound into images below it keeps every
      image below it. */
  lemma InsertBelow(images: seq<Image>, img: Image, bound: int)
    requires AllPositioned(images) && img.position.Some? && img.position.value <= bound
    requires forall k :: 0 <= k < |images| ==> images[k].position.value <= bound
    ensures forall k :: 0 <= k < |InsertByPosition(images, img)| ==>
      InsertByPosition(images, img)[k].position.value <= bound
  {
    var r := InsertByPosition(images, img);
    forall k | 0 <= k < |r|
      ensures r[k].position.value <= bound
    {
      assert r[k] in multiset(r);
      if r[k] != img {
        assert r[k] in multiset(images);
        var j :| 0 <= j < |images| && images[j] == r[k];
      }
    }
  }

  /** An image at or after every image of a sorted sequence can follow it. */
  lemma SortedAppend(images: seq<Image>, last: Image)
    requires AllPositioned(images) && SortedByPosition(images) && last.position.Some?
    requires forall k :: 0 <= k < |images| ==> images[k].position.value <= last.position.value
    ensures AllPositioned(images + [last]) && SortedByPosition(images + [last])
  {
    var r := images + [last];
    forall i, j | 0 <= i < j < |r|
      ensures r[i].position.value <= r[j].position.value
    {
      assert r[i] == images[i];
      if j < |images| {
        assert r[j] == images[j];
      }
    }
  }

  /** Inserting into a sorted sequence keeps it sorted. */
  lemma {:induction false} InsertKeepsSorted(sorted: seq<Image>, img: Image)
    requires AllPositioned(sorted) && img.position.Some? && SortedByPosition(sorted)
    ensures SortedByPosition(InsertByPosition(sorted, img))
    decreases |sorted|
  {
    if sorted != [] && sorted[|sorted| - 1].position.value > img.position.value {
      var init, last := sorted[..|sorted| - 1], sorted[|sorted| - 1];
      assert sorted == init + [last];
      InsertKeepsSorted(init, img);
      var r0 := InsertByPosition(init, img);
      InsertBelow(init, img, last.position.value);
      SortedAppend(r0, last);
      assert InsertByPosition(sorted, img) == r0 + [last];
    }
  }

  /** The images in non-decreasing position order: the stable sort that
      Comparator.comparing(getPosition) gives. */
  function SortByPosition(images: seq<Image>): (r: seq<Image>)
    requires AllPositioned(images)
    ensures AllPositioned(r) && SortedByPosition(r)
    ensures multiset(r) == multiset(images)
  {
    if images == [] then []
    else
      var init, last := images[..|images| - 1], images[|images| - 1];
      assert images == init + [last];
      InsertKeepsSorted(SortByPosition(init), last);
      InsertByPosition(SortByPosition(init), last)
  }

  function Urls(images: seq<Image>): (r: seq<Option<string>>)
    ensures |r| == |images|
    ensures forall k :: 0 <= k < |images| ==> r[k] == images[k].imageUrl
  {
    seq(|images|, k requires 0 <= k < |images| => images[k].imageUrl)
  }

  /** getAllImageUrls: the URLs of the images sorted by position. Streaming a
      null image list throws. Sorting two or more images compares every one
      of them, and comparing a null position throws; zero or one image is
      returned without a comparison. */
  function AllImageUrls(images: Option<seq<Image>>): (r: Result<seq<Option<string>>>)
    ensures r.Thrown? <==> images == None || (|images.value| >= 2 && !AllPositioned(images.value))
    ensures r.Thrown? ==> r.error == NullPointer
    ensures r.Ok? ==> |r.value| == |images.value|
    ensures r.Ok? && AllPositioned(images.value) ==>
      exists sorted :: AllPositioned(sorted) && SortedByPosition(sorted)
        && multiset(sorted) == multiset(images.value) && r.value == Urls(sorted)
  {
    if images == None then Thrown(NullPointer)
    else if |images.value| <= 1 then
      assert AllPositioned(images.value) ==> SortedByPosition(images.value);
      Ok(Urls(images.value))
    else if !AllPositioned(images.value) then Thrown(NullPointer)
    else
      var sorted := SortByPosition(images.value);
      assert |sorted| == |multiset(sorted)| == |images.value|;
      Ok(Urls(sorted))
  }

  // ----- rating -----

  /** The two fields updateRating reads and writes. */
  datatype RatingState = RatingState(rating: Option<Cents>, reviewCount: Option<int>)

  /** The sum of the ratings the stored average stands for: the average
      times the count, or zero when there is no average. */
  function RatingTotal(s: RatingState): int
    requires s.reviewCount.Some?
  {
    if s.rating.Some? then s.rating.value * s.reviewCount.value else 0
  }

  /** updateRating as written. A null rating changes nothing. A null review
      count throws before anything is stored. A new review is added to the
      total and counted; an edited review is added to the total too, without
      the rating it replaces being taken out, and without being counted. A
      count of zero at the division throws, after the count was stored. */
  function RatingUpdate(s: RatingState, newRating: Option<Cents>, isNew: bool): (r: (Completion, RatingState))
    ensures newRating == None ==> r == (Normal, s)
    ensures r.0.Abrupt? ==> r.1.rating == s.rating
    ensures r.0 == Abrupt(NullPointer) <==> newRating != None && s.reviewCount == None
    ensures r.0 == Normal && newRating != None ==>
      r.1.reviewCount == Some(s.reviewCount.value + (if isNew then 1 else 0))
    ensures isNew && s.reviewCount != None && s.reviewCount.value >= 0 ==> r.0 == Normal
  {
    if newRating == None then (Normal, s)
    else if s.reviewCount == None then (Abrupt(NullPointer), s)
    else
      var total := RatingTotal(s) + newRating.value;
      var count := if isNew then s.reviewCount.value + 1 else s.reviewCount.value;
      if count == 0 then (Abrupt(Arithmetic), RatingState(s.rating, Some(count)))
      else (Normal, RatingState(Some(DivHalfUp(total, count)), Some(count)))
  }

  /** The average of some ratings, rounded half up to two decimals. */
  function Mean(ratings: seq<Cents>): Cents
    requires |ratings| > 0
  {
    DivHalfUp(Sum(ratings), |ratings|)
  }

  /** A new review keeps the stored rating the average of all reviews: when
      the stored average times the count is the sum of the ratings so far,
      the new average is the average of those ratings and the new one. */
  lemma NewReviewKeepsMean(s: RatingState, ratings: seq<Cents>, newRating: Cents)
    requires s.reviewCount == Some(|ratings|) && RatingTotal(s) == Sum(ratings)
    ensures RatingUpdate(s, Some(newRating), true)
         == (Normal, RatingState(Some(Mean(ratings + [newRating])), Some(|ratings| + 1)))
  {
    SumAppend(ratings, newRating);
  }

  /** Averages of ratings between 1.00 and 5.00 stay between 1.00 and 5.00. */
  lemma {:induction false} MeanWithinStars(ratings: seq<Cents>)
    requires |ratings| > 0
    requires forall k :: 0 <= k < |ratings| ==> 100 <= ratings[k] <= 500
    ensures 100 <= Mean(ratings) <= 500
  {
    SumWithin(ratings, 100, 500);
    DivHalfUpWithin(Sum(ratings), |ratings|, 100, 500);
  }

  /** As written, editing the only review of a 4.00 product to 2.00 stores
      6.00: the new rating is added and the old one is kept. */
  lemma EditAddsInsteadOfReplacing()
    ensures RatingUpdate(RatingState(Some(400), Some(1)), Some(200), false)
         == (Normal, RatingState(Some(600), Some(1)))
    ensures Mean([200]) == 200
  {
    assert DivHalfUp(600, 1) == NearestUp(600, 1);
    assert Sum([200]) == 200 by { assert [200][..0] == []; }
    assert DivHalfUp(200, 1) == NearestUp(200, 1);
  }

  /** As written, editing a review of a product with no counted review
      divides by zero. */
  lemma EditWithoutReviewsDividesByZero(newRating: Cents)
    ensures RatingUpdate(RatingState(None, Some(0)), Some(newRating), false).0 == Abrupt(Arithmetic)
  {
  }

  /** An edited review as intended: the replaced rating is taken out of the
      total before the new one is put in, and the count is unchanged. With
      no counted review there is nothing to replace. */
  function RatingEdit(s: RatingState, replaced: Cents, newRating: Option<Cents>): (r: (Completion, RatingState))
    ensures r.1.reviewCount == s.reviewCount
    ensures r.0 == Normal <==> newRating == None || s.reviewCount != None
    ensures r.0.Abrupt? ==> r.0.error == NullPointer && r.1 == s
    ensures s.reviewCount == Some(1) && RatingTotal(s) == replaced && newRating != None ==>
      r.1.rating == Some(newRating.value)
  {
    if newRating == None then (Normal, s)
    else if s.reviewCount == None then (Abrupt(NullPointer), s)
    else if s.reviewCount.value == 0 then (Normal, s)
    else
      var total := RatingTotal(s) - replaced + newRating.value;
      (Normal, RatingState(Some(DivHalfUp(total, s.reviewCount.value)), s.reviewCount))
  }

  /** The intended edit keeps the stored rating the average of all reviews:
      replacing the i-th rating gives the average of the updated ratings. */
  lemma EditKeepsMean(s: RatingState, ratings: seq<Cents>, i: int, newRating: Cents)
    requires s.reviewCount == Some(|ratings|) && RatingTotal(s) == Sum(ratings)
    requires 0 <= i < |ratings|
    ensures RatingEdit(s, ratings[i], Some(newRating))
         == (Normal, RatingState(Some(Mean(ratings[i := newRating])), Some(|ratings|)))
  {
    SumUpdate(ratings, i, newRating);
  }

  /** A discount from a compare price above a positive price is between 0
      and 100 percent (0 and 10000 hundredths). */
  lemma DiscountWithinPercent(comparePrice: Cents, price: Cents)
    ensures 0 < price < comparePrice ==> 0 <= DivHalfUp((comparePrice - price) * 100 * 100, comparePrice) <= 10000
  {
    if 0 < price < comparePrice {
      DivHalfUpWithin((comparePrice - price) * 100 * 100, comparePrice, 0, 10000);
    }
  }

  // ----- the entity -----

  class Product {
    var name: Option<string>
    var price: Cents
    var comparePrice: Option<Cents>
    var stock: Option<int>
    var minStock: Option<int>
    var rating: Option<Cents>
    var reviewCount: Option<int>
    var viewCount: Option<int>
    var purchaseCount: Option<int>
    var tags: Option<seq<string>>
    var images: Option<seq<Image>>
    var createdAt: Option<DateTime>
    var isDeleted: Option<bool>

    /** A new product: no stock, no reviews, views or purchases, no tags and
        no images. */
    constructor (name: Option<string>, price: Cents)
      ensures this.name == name && this.price == price && comparePrice == None
      ensures stock == Some(0) && minStock == Some(0)
      ensures rating == None && reviewCount == Some(0)
      ensures viewCount == Some(0) && purchaseCount == Some(0)
      ensures tags == Some([]) && images == Some([]) && createdAt == None && isDeleted == Some(false)
      ensures StockStatus() == OutOfStock
    {
      this.name := name;
      this.price := price;
      comparePrice := None;
      stock := Some(0);
      minStock := Some(0);
      rating := None;
      reviewCount := Some(0);
      viewCount := Some(0);
      purchaseCount := Some(0);
      tags := Some([]);
      images := Some([]);
      createdAt := None;
      isDeleted := Some(false);
    }

    /** isInStock: a positive stock; a null stock counts as none. */
    predicate IsInStock()
      reads this
      ensures IsInStock() <==> CountOrZero(stock) > 0
    {
      stock != None && stock.value > 0
    }

    /** isLowStock: at or below the minimum, both known. */
    predicate IsLowStock()
      reads this
      ensures stock == None || minStock == None ==> !IsLowStock()
      ensures IsLowStock() ==> stock.value <= minStock.value
      ensures stock != None && minStock != None && stock.value <= minStock.value ==> IsLowStock()
    {
      stock != None && minStock != None && stock.value <= minStock.value
    }

    /** hasDiscount: a compare price above the price. */
    predicate HasDiscount()
      reads this
      ensures comparePrice == None ==> !HasDiscount()
      ensures HasDiscount() <==> comparePrice != None && price < comparePrice.value
      ensures HasDiscount() && price >= 0 ==> comparePrice.value > 0
    {
      comparePrice != None && comparePrice.value > price
    }

    /** getStockStatus: out of stock exactly when not in stock; otherwise low
        or in stock according to the minimum. */
    function StockStatus(): (r: string)
      reads this
      ensures r == OutOfStock <==> !IsInStock()
      ensures r == LowStock <==> IsInStock() && IsLowStock()
      ensures r == InStock <==> IsInStock() && !IsLowStock()
    {
      if IsInStock() then (if IsLowStock() then LowStock else InStock) else OutOfStock
    }

    /** getDiscountPercentage, in hundredths of a percent: zero without a
        discount, otherwise (comparePrice - price) * 100 / comparePrice
        rounded half up to two decimals. A compare price of zero with a
        negative price divides by zero. For a positive price the percentage
        lies in [0, 100]. */
    function DiscountPercentage(): (r: Result<int>)
      reads this
      ensures !HasDiscount() ==> r == Ok(0)
      ensures r.Thrown? <==> HasDiscount() && comparePrice.value == 0
      ensures r.Thrown? ==> r.error == Arithmetic
      ensures HasDiscount() && price > 0 ==>
        var c := comparePrice.value;
        && r.Ok? && 0 <= r.value <= 10000
        && 2 * r.value * c - c <= 2 * (c - price) * 10000 < 2 * r.value * c + c
    {
      if !HasDiscount() then Ok(0)
      else if comparePrice.value == 0 then Thrown(Arithmetic)
      else
        var c := comparePrice.value;
        // (compare - price) * 100, then divided at scale 2: unscaled * 100
        var n := (c - price) * 100 * 100;
        DiscountWithinPercent(c, price);
        Ok(DivHalfUp(n, c))
    }

    /** isNewProduct: created less than 30 days before now. */
    function IsNewProduct(now: DateTime): (r: bool)
      reads this
      ensures r <==> createdAt != None && now - createdAt.value < NewProductDays * SecondsPerDay
    {
      createdAt != None && PlusDays(createdAt.value, NewProductDays) > now
    }

    /** hasTag: the list is present and contains the tag. */
    predicate HasTag(tag: Option<string>)
      reads this
      ensures tags == None || tag == None ==> !HasTag(tag)
      ensures HasTag(tag) <==> tags != None && tag != None && exists k :: 0 <= k < |tags.value| && tags.value[k] == tag.value
    {
      tags != None && tag != None && tag.value in tags.value
    }

    /** incrementViewCount: one more view, a null count read as zero. */
    method IncrementViewCount()
      modifies this`viewCount
      ensures viewCount == Some(CountOrZero(old(viewCount)) + 1)
    {
      viewCount := if viewCount == None then Some(1) else Some(viewCount.value + 1);
    }

    /** incrementPurchaseCount: the quantity added, a null count read as
        zero. */
    method IncrementPurchaseCount(quantity: int)
      modifies this`purchaseCount
      ensures purchaseCount == Some(CountOrZero(old(purchaseCount)) + quantity)
    {
      purchaseCount := if purchaseCount == None then Some(quantity) else Some(purchaseCount.value + quantity);
    }

    /** addTag: a tag that trims to something is appended trimmed (duplicates
        allowed), creating the list if needed; anything else changes
        nothing. */
    method AddTag(tag: Option<string>)
      modifies this`tags
      ensures tag != None && Trim(tag.value) != [] ==>
        && tags == Some((if old(tags) == None then [] else old(tags).value) + [Trim(tag.value)])
        && HasTag(Some(Trim(tag.value)))
      ensures tag == None || Trim(tag.value) == [] ==> tags == old(tags)
    {
      if tag != None && Trim(tag.value) != [] {
        if tags == None {
          tags := Some([]);
        }
        tags := Some(tags.value + [Trim(tag.value)]);
      }
    }

    /** updateRating as written (see RatingUpdate). */
    method UpdateRating(newRating: Option<Cents>, isNew: bool) returns (c: Completion)
      modifies this`rating, this`reviewCount
      ensures (c, RatingState(rating, reviewCount))
           == RatingUpdate(old(RatingState(rating, reviewCount)), newRating, isNew)
    {
      if newRating == None {
        return Normal;
      }
      if reviewCount == None {
        // the unboxing of the count throws on every path
        return Abrupt(NullPointer);
      }
      var total := if rating != None then rating.value * reviewCount.value else 0;
      if isNew {
        total := total + newRating.value;
        reviewCount := Some(reviewCount.value + 1);
      } else {
        total := total + newRating.value;
      }
      if reviewCount.value == 0 {
        return Abrupt(Arithmetic);
      }
      rating := Some(DivHalfUp(total, reviewCount.value));
      c := Normal;
    }

    /** prePersist: settles the soft-delete flag, then turns each null
        counter into zero and keeps the others. */
    method PrePersist()
      modifies this`isDeleted, this`viewCount, this`purchaseCount, this`reviewCount
      ensures isDeleted == BaseModel.Settled(old(isDeleted))
      ensures viewCount == Some(CountOrZero(old(viewCount)))
      ensures purchaseCount == Some(CountOrZero(old(purchaseCount)))
      ensures reviewCount == Some(CountOrZero(old(reviewCount)))
      ensures old(viewCount) != None ==> viewCount == old(viewCount)
      ensures old(purchaseCount) != None ==> purchaseCount == old(purchaseCount)
      ensures old(reviewCount) != None ==> reviewCount == old(reviewCount)
    {
      if isDeleted == None {
        isDeleted := Some(false);
      }
      if viewCount == None {
        viewCount := Some(0);
      }
      if purchaseCount == None {
        purchaseCount := Some(0);
      }
      if reviewCount == None {
        reviewCount := Some(0);
      }
    }
  }
}

=== FILE: product_image.dfy ===
/** ProductImageModel: one picture of a product, in the product's carousel. */
module ProductImage {
  import opened JavaLang

  /** What an image reads of its product: the product's name. */
  datatype ProductRef = ProductRef(name: Option<string>)

  datatype Image = Image(
    productId: Uuid,
    imageUrl: Option<string>,
    altText: Option<string>,
    position: Option<int>,
    isPrimary: Option<bool>,
    product: Option<ProductRef>)

  /** The file extensions isSupportedFormat accepts. */
  const SupportedExtensions: seq<string> := [".jpg", ".png", ".jpeg", ".webp"]

  /** A new image: first position, not the primary one. */
  function NewImage(productId: Uuid, imageUrl: Option<string>): (img: Image)
    ensures img.position == Some(0) && img.isPrimary == Some(false)
    ensures img.imageUrl == imageUrl && img.altText == None
    ensures EffectiveAltText(img) == "Image de produit"
  {
    Image(productId, imageUrl, None, Some(0), Some(false), None)
  }

  /** isSupportedFormat: the lower-cased URL ends with one of the supported
      extensions; a null URL is not supported. */
  predicate IsSupportedFormat(img: Image)
    ensures img.imageUrl == None ==> !IsSupportedFormat(img)
    ensures IsSupportedFormat(img) ==> |img.imageUrl.value| >= 4
  {
    img.imageUrl != None &&
      (EndsWith(ToLower(img.imageUrl.value), ".jpg") ||
       EndsWith(ToLower(img.imageUrl.value), ".png") ||
       EndsWith(ToLower(img.imageUrl.value), ".jpeg") ||
       EndsWith(ToLower(img.imageUrl.value), ".webp"))
  }

  /** The format test ignores case: two URLs that agree once lower-cased are
      both supported or both not; and the supported URLs are exactly those
      whose lower-cased form ends with a listed extension. */
  lemma SupportedFormatIgnoresCase(img: Image, url: string)
    requires img.imageUrl != None && ToLower(url) == ToLower(img.imageUrl.value)
    ensures IsSupportedFormat(img.(imageUrl := Some(url))) == IsSupportedFormat(img)
    ensures IsSupportedFormat(img) <==>
      exists k :: 0 <= k < |SupportedExtensions| && EndsWith(ToLower(url), SupportedExtensions[k])
  {
    var ext := ToLower(url);
    if IsSupportedFormat(img) {
      if EndsWith(ext, ".jpg") { assert EndsWith(ext, SupportedExtensions[0]); }
      else if EndsWith(ext, ".png") { assert EndsWith(ext, SupportedExtensions[1]); }
      else if EndsWith(ext, ".jpeg") { assert EndsWith(ext, SupportedExtensions[2]); }
      else { assert EndsWith(ext, SupportedExtensions[3]); }
    }
  }

  /** An upper-case extension is accepted. */
  lemma UpperCaseExtensionSupported()
    ensures IsSupportedFormat(NewImage(0, Some("photo.JPG")))
  {
    var u := ToLower("photo.JPG");
    assert u[5] == '.' && u[6] == 'j' && u[7] == 'p' && u[8] == 'g';
    assert u[|u| - 4..] == ".jpg";
  }

  /** getEffectiveAltText: the alt text when it is present and not blank,
      otherwise a text naming the product (its name rendered as "null" when
      missing), or a generic text when the image has no product. The result
      is never blank. */
  function EffectiveAltText(img: Image): (r: string)
    ensures img.altText != None && !IsBlank(img.altText.value) ==> r == img.altText.value
    ensures !IsBlank(r)
    ensures (img.altText == None || IsBlank(img.altText.value)) && img.product != None ==>
      r == "Image du produit " + Render(img.product.value.name)
    ensures (img.altText == None || IsBlank(img.altText.value)) && img.product == None ==>
      r == "Image de produit"
  {
    if img.altText != None && !IsBlank(img.altText.value) then img.altText.value
    else if img.product != None then
      var r := "Image du produit " + Render(img.product.value.name);
      assert !IsWhitespace(r[0]);
      r
    else
      var r := "Image de produit";
      assert !IsWhitespace(r[0]);
      r
  }
}

=== FILE: product_review.dfy ===
/** ProductReviewModel: a customer's 1 to 5 star review of a product. */
module ProductReview {
  import opened JavaLang

  const MinRating: int := 1
  const MaxRating: int := 5

  /** The int arithmetic of Integer + 1: 2^31 - 1 wraps to -2^31. */
  const IntMax: int := 0x7fff_ffff

  class Review {
    var productId: Uuid
    var userId: Uuid
    var rating: Option<int>
    var isVerifiedPurchase: Option<bool>
    var isApproved: Option<bool>
    var helpfulCount: Option<int>

    /** new ProductReviewModel(): not a verified purchase, not approved, no
        helpful votes. */
    constructor (productId: Uuid, userId: Uuid, rating: Option<int>)
      ensures this.productId == productId && this.userId == userId && this.rating == rating
      ensures isVerifiedPurchase == Some(false) && isApproved == Some(false)
      ensures helpfulCount == Some(0)
    {
      this.productId := productId;
      this.userId := userId;
      this.rating := rating;
      isVerifiedPurchase := Some(false);
      isApproved := Some(false);
      helpfulCount := Some(0);
    }

    /** markAsVerifiedPurchase: only the verified-purchase flag, set to true. */
    method MarkAsVerifiedPurchase()
      modifies this`isVerifiedPurchase
      ensures isVerifiedPurchase == Some(true)
    {
      isVerifiedPurchase := Some(true);
    }

    /** approve: only the approval flag, set to true. */
    method Approve()
      modifies this`isApproved
      ensures isApproved == Some(true)
    {
      isApproved := Some(true);
    }

    /** incrementHelpfulCount: one more helpful vote, a null count counting as
        0; the new count is stored and returned (int arithmetic). */
    method IncrementHelpfulCount() returns (count: int)
      modifies this`helpfulCount
      ensures helpfulCount == Some(count)
      ensures old(helpfulCount) == None ==> count == 1
      ensures old(helpfulCount) != None && -IntMax - 1 <= old(helpfulCount).value < IntMax ==>
        count == old(helpfulCount).value + 1
      ensures old(helpfulCount) != None ==> count == ToInt32(old(helpfulCount).value + 1)
    {
      if helpfulCount == None {
        count := 1;
      } else {
        count := ToInt32(helpfulCount.value + 1);
      }
      helpfulCount := Some(count);
    }

    /** isPositiveReview: a rating of at least 4. */
    predicate IsPositive()
      reads this
      ensures rating == None ==> !IsPositive()
      ensures IsPositive() && rating.value <= MaxRating ==> rating.value == 4 || rating.value == 5
    {
      rating != None && rating.value >= 4
    }

    /** isNegativeReview: a rating of at most 2. */
    predicate IsNegative()
      reads this
      ensures rating == None ==> !IsNegative()
      ensures IsNegative() && MinRating <= rating.value ==> rating.value == 1 || rating.value == 2
    {
      rating != None && rating.value <= 2
    }

    /** isNeutralReview: a rating of exactly 3. */
    predicate IsNeutral()
      reads this
      ensures IsNeutral() <==> rating == Some(3)
    {
      rating != None && rating.value == 3
    }
  }

  /** Every review with a rating is exactly one of positive, negative and
      neutral; a review without a rating is none of them. */
  lemma ClassificationPartition(r: Review)
    ensures r.rating != None ==>
      (r.IsPositive() || r.IsNegative() || r.IsNeutral())
      && !(r.IsPositive() && r.IsNegative()) && !(r.IsPositive() && r.IsNeutral())
      && !(r.IsNegative() && r.IsNeutral())
    ensures r.rating == None ==> !r.IsPositive() && !r.IsNegative() && !r.IsNeutral()
  {
  }
}

=== FILE: user.dfy ===
/** UserModel: an account of the platform, its roles, names and the lists
    of addresses and carts it owns. */
module User {
  import opened JavaLang
  import opened Clock
  import UserAddress
  import Cart

  const ActiveStatus: string := "ACTIVE"
  const CustomerRole: string := "CUSTOMER"
  const AdultAge: int := 18

  /** The free-mail domains hasProfessionalEmail rejects. */
  const FreeMailDomains: seq<string> := ["gmail.com", "yahoo.com", "hotmail.com", "outlook.com", "live.com"]

  // ----- the role list -----

  predicate NoDuplicates(xs: seq<string>)
  {
    forall i, j :: 0 <= i < j < |xs| ==> xs[i] != xs[j]
  }

  /** hasRole: the list exists and holds the role (a null role is never held,
      as no null is ever added). */
  predicate HasRole(roles: Option<seq<string>>, role: Option<string>)
    ensures roles == None || role == None ==> !HasRole(roles, role)
    ensures HasRole(roles, role) <==>
      roles != None && role != None && exists k :: 0 <= k < |roles.value| && roles.value[k] == role.value
  {
    roles != None && role != None && role.value in roles.value
  }

  /** A role addRole accepts: non-null and not blank after trim. */
  predicate Acceptable(role: Option<string>)
  {
    role != None && Trim(role.value) != []
  }

  /** The role list after addRole(role): an acceptable role is appended
      (to a new list if there was none) unless the list already holds it. */
  function WithRole(roles: Option<seq<string>>, role: Option<string>): (r: Option<seq<string>>)
    ensures !Acceptable(role) ==> r == roles
    ensures Acceptable(role) ==> HasRole(r, role)
    ensures HasRole(roles, role) ==> r == roles
    ensures Acceptable(role) && !HasRole(roles, role) ==>
      r == Some((if roles == None then [] else roles.value) + [role.value])
    ensures roles != None && NoDuplicates(roles.value) ==> r != None && NoDuplicates(r.value)
    ensures forall x :: HasRole(roles, x) ==> HasRole(r, x)
  {
    if !Acceptable(role) then roles
    else
      var rs := if roles == None then [] else roles.value;
      if role.value in rs then Some(rs) else Some(rs + [role.value])
  }

  /** Adding a role twice is adding it once. */
  lemma WithRoleIdempotent(roles: Option<seq<string>>, role: Option<string>)
    ensures WithRole(WithRole(roles, role), role) == WithRole(roles, role)
  {
  }

  // ----- first matching element of the owned lists -----

  /** The index of the first address flagged default (Boolean.TRUE.equals),
      or the length when there is none. */
  function FirstDefault(addrs: seq<UserAddress.Address>): (k: nat)
    reads set a | a in addrs
    ensures k <= |addrs|
    ensures k < |addrs| ==> addrs[k].isDefault == Some(true)
    ensures forall j :: 0 <= j < k ==> addrs[j].isDefault != Some(true)
  {
    if addrs == [] || addrs[0].isDefault == Some(true) then 0
    else 1 + FirstDefault(addrs[1..])
  }

  /** The index of the first cart whose status is exactly "ACTIVE" (equals,
      so case matters), or the length when there is none. */
  function FirstActive(carts: seq<Cart.Cart>): (k: nat)
    ensures k <= |carts|
    ensures k < |carts| ==> carts[k].statusCode == Some(ActiveStatus)
    ensures forall j :: 0 <= j < k ==> carts[j].statusCode != Some(ActiveStatus)
  {
    if carts == [] || carts[0].statusCode == Some(ActiveStatus) then 0
    else 1 + FirstActive(carts[1..])
  }

  // ----- names -----

  /** A full name getDisplayName and getInitials use: non-null, not blank
      after trim. */
  predicate NameUsable(fullName: Option<string>)
  {
    fullName != None && Trim(fullName.value) != []
  }

  class User {
    var fullName: Option<string>
    var email: Option<string>
    var dateOfBirth: Option<Date>
    var roleCode: Option<string>
    var emailVerified: Option<bool>
    var phoneVerified: Option<bool>
    var statusCode: Option<string>
    var lastLoginAt: Option<DateTime>
    var roles: Option<seq<string>>
    var addresses: Option<seq<UserAddress.Address>>
    var carts: Option<seq<Cart.Cart>>

    /** new UserModel(): a customer, unverified, active, with empty role,
        address and cart lists. */
    constructor (fullName: Option<string>, email: Option<string>)
      ensures this.fullName == fullName && this.email == email
      ensures dateOfBirth == None && lastLoginAt == None
      ensures roleCode == Some(CustomerRole) && statusCode == Some(ActiveStatus)
      ensures emailVerified == Some(false) && phoneVerified == Some(false)
      ensures roles == Some([]) && addresses == Some([]) && carts == Some([])
      ensures IsActive() && !IsFullyVerified()
      ensures DefaultAddress() == None && ActiveCart() == None
    {
      this.fullName := fullName;
      this.email := email;
      dateOfBirth := None;
      roleCode := Some(CustomerRole);
      emailVerified := Some(false);
      phoneVerified := Some(false);
      statusCode := Some(ActiveStatus);
      lastLoginAt := None;
      roles := Some([]);
      addresses := Some([]);
      carts := Some([]);
      assert ToLower(ActiveStatus) == "active";
    }

    /** getAge: whole years from the date of birth to today (the years of
        Period.between), null without a date of birth. For a birth date not
        after today it is the number of birthdays passed: today is on or
        after the r-th anniversary and before the next one. */
    function Age(today: Date): (r: Option<int>)
      reads this
      ensures r == None <==> dateOfBirth == None
      ensures r != None ==> r.value == PeriodYears(dateOfBirth.value, today)
      ensures (r != None && 1 <= dateOfBirth.value.month <= 12 && 1 <= today.month <= 12
               && !IsBefore(today, dateOfBirth.value)) ==>
        var b := dateOfBirth.value;
        && r.value >= 0
        && !IsBefore(today, Date(b.year + r.value, b.month, b.day))
        && IsBefore(today, Date(b.year + r.value + 1, b.month, b.day))
    {
      if dateOfBirth == None then None
      else
        PeriodYearsBirthdays(dateOfBirth.value, today);
        Some(PeriodYears(dateOfBirth.value, today))
    }

    /** isAdult: an age is known and is at least 18. */
    predicate IsAdult(today: Date)
      reads this
      ensures dateOfBirth == None ==> !IsAdult(today)
      ensures IsAdult(today) ==> Age(today).value >= AdultAge
    {
      var age := Age(today);
      age != None && age.value >= AdultAge
    }

    /** isFullyVerified: both the email and the phone are verified. */
    predicate IsFullyVerified()
      reads this
      ensures IsFullyVerified() <==> emailVerified == Some(true) && phoneVerified == Some(true)
      ensures emailVerified == None || phoneVerified == None ==> !IsFullyVerified()
    {
      emailVerified == Some(true) && phoneVerified == Some(true)
    }

    /** isActive: the status is "ACTIVE" in any letter case; null is not. */
    predicate IsActive()
      reads this
      ensures statusCode == None ==> !IsActive()
      ensures IsActive() ==> |statusCode.value| == |ActiveStatus|
      ensures IsActive() <==> statusCode != None && ToLower(statusCode.value) == "active"
    {
      statusCode != None && EqualsIgnoreCase(ActiveStatus, statusCode.value)
    }

    /** getDefaultAddress: null without a list; otherwise the first address
        flagged default, or null. */
    function DefaultAddress(): (r: Option<UserAddress.Address>)
      reads this, if addresses == None then {} else set a | a in addresses.value
      ensures addresses == None ==> r == None
      ensures r != None ==>
        (addresses != None && r.value.isDefault == Some(true)
         && (exists k :: 0 <= k < |addresses.value| && addresses.value[k] == r.value
               && forall j :: 0 <= j < k ==> addresses.value[j].isDefault != Some(true)))
      ensures addresses != None && r == None ==>
        forall k :: 0 <= k < |addresses.value| ==> addresses.value[k].isDefault != Some(true)
    {
      if addresses == None then None
      else
        var k := FirstDefault(addresses.value);
        if k < |addresses.value| then Some(addresses.value[k]) else None
    }

    /** getActiveCart: null without a list; otherwise the first cart whose
        status is exactly "ACTIVE", or null. */
    function ActiveCart(): (r: Option<Cart.Cart>)
      reads this
      ensures carts == None ==> r == None
      ensures r != None ==>
        (carts != None && r.value.statusCode == Some(ActiveStatus)
         && (exists k :: 0 <= k < |carts.value| && carts.value[k] == r.value
               && forall j :: 0 <= j < k ==> carts.value[j].statusCode != Some(ActiveStatus)))
      ensures carts != None && r == None ==>
        forall k :: 0 <= k < |carts.value| ==> carts.value[k].statusCode != Some(ActiveStatus)
    {
      if carts == None then None
      else
        var k := FirstActive(carts.value);
        if k < |carts.value| then Some(carts.value[k]) else None
    }

    /** getDisplayName: the full name when it is not blank; otherwise the part
        of the email before its first '@' (split drops an empty result, so an
        email made only of '@' fails on element 0); otherwise "". */
    function DisplayName(): (r: Result<string>)
      reads this
      ensures NameUsable(fullName) ==> r == Ok(fullName.value)
      ensures !NameUsable(fullName) && email == None ==> r == Ok([])
      ensures !NameUsable(fullName) && email != None ==>
        (r.Thrown? <==> email.value != [] && forall i :: 0 <= i < |email.value| ==> email.value[i] == '@')
        && (r.Thrown? ==> r.error == ArrayIndexOutOfBounds)
        && (r.Ok? ==> r.value == Before(email.value, '@'))
    {
      if NameUsable(fullName) then Ok(fullName.value)
      else if email != None then
        var parts := Split(email.value, '@');
        SplitHead(email.value, '@');
        if |parts| == 0 then Thrown(ArrayIndexOutOfBounds) else Ok(parts[0])
      else Ok([])
    }

    /** getInitials: "" for a missing or blank name; the words are the pieces
        of split(" "); one word gives its upper-cased first character, more
        give those of the first and last word; an empty first word (a name
        starting with a space) fails on charAt(0). */
    function Initials(): (r: Result<string>)
      reads this
      ensures !NameUsable(fullName) ==> r == Ok([])
      ensures NameUsable(fullName) && ' ' !in fullName.value ==>
        r == Ok([ToUpperChar(fullName.value[0])])
      ensures r.Ok? ==> |r.value| <= 2
      ensures r.Thrown? ==> r.error == StringIndexOutOfBounds
    {
      if !NameUsable(fullName) then Ok([])
      else
        var names := Split(fullName.value, ' ');
        if |names| == 0 then Ok([])
        else if |names| == 1 then
          if names[0] == [] then Thrown(StringIndexOutOfBounds)
          else UpperOfFirst(names[0]); Ok(ToUpper(names[0][..1]))
        else if names[0] == [] || names[|names| - 1] == [] then Thrown(StringIndexOutOfBounds)
        else Ok(ToUpper([names[0][0]] + names[|names| - 1][..1]))
    }

    /** hasProfessionalEmail: false without an email; the domain is the second
        piece of split("@") (an email with no '@' has none and fails); the
        email is professional when the lower-cased domain matches none of the
        free-mail domains, ignoring case. */
    function HasProfessionalEmail(): (r: Result<bool>)
      reads this
      ensures email == None ==> r == Ok(false)
      ensures email != None && '@' !in email.value ==> r == Thrown(ArrayIndexOutOfBounds)
      ensures r.Thrown? ==> r.error == ArrayIndexOutOfBounds
    {
      if email == None then Ok(false)
      else
        var parts := Split(email.value, '@');
        if |parts| < 2 then Thrown(ArrayIndexOutOfBounds)
        else
          var domain := ToLower(parts[1]);
          Ok(forall k :: 0 <= k < |FreeMailDomains| ==> !EqualsIgnoreCase(FreeMailDomains[k], domain))
    }

    /** addRole: an acceptable role joins the list once. */
    method AddRole(role: Option<string>)
      modifies this`roles
      ensures roles == WithRole(old(roles), role)
      ensures Acceptable(role) ==> HasRole(roles, role)
      ensures old(HasRole(roles, role)) || !Acceptable(role) ==> roles == old(roles)
      ensures old(roles) != None && old(NoDuplicates(roles.value)) ==> roles != None && NoDuplicates(roles.value)
    {
      if role != None && Trim(role.value) != [] {
        if roles == None {
          roles := Some([]);
        }
        if role.value !in roles.value {
          roles := Some(roles.value + [role.value]);
        }
      }
    }

    /** updateLastLogin: the last login becomes now. */
    method UpdateLastLogin(now: DateTime)
      modifies this`lastLoginAt
      ensures lastLoginAt == Some(now)
    {
      lastLoginAt := Some(now);
    }
  }

  /** Upper-casing the first character of a non-empty string. */
  lemma UpperOfFirst(s: string)
    requires s != []
    ensures ToUpper(s[..1]) == [ToUpperChar(s[0])]
  {
  }

  /** A user is an adult exactly from the 18th anniversary of the date of
      birth on: on every day not before it, and on no day before it. */
  lemma {:induction false} AdultFromEighteenthBirthday(u: User, today: Date)
    requires u.dateOfBirth != None && 1 <= u.dateOfBirth.value.month <= 12 && 1 <= today.month <= 12
    ensures var b := u.dateOfBirth.value;
      u.IsAdult(today) <==> !IsBefore(today, Date(b.year + AdultAge, b.month, b.day))
  {
    PeriodYearsReached(u.dateOfBirth.value, today, AdultAge);
  }

  /** The display name of a user without a usable name is the local part of
      an email "local@domain". */
  lemma DisplayNameIsLocalPart(u: User, local: string, domain: string)
    requires !NameUsable(u.fullName) && u.email == Some(local + "@" + domain)
    requires '@' !in local && local != []
    ensures u.DisplayName() == Ok(local)
  {
    var e := local + "@" + domain;
    assert e[0] == local[0] != '@';
    assert e[|local|] == '@' && e[..|local|] == local;
    BeforeOfPrefix(local, "@" + domain);
    assert e == local + ("@" + domain);
  }

  /** The part before the first '@' of a + rest, when a holds no '@' and rest
      starts with one, is a. */
  lemma {:induction false} BeforeOfPrefix(a: string, rest: string)
    requires '@' !in a && rest != [] && rest[0] == '@'
    ensures Before(a + rest, '@') == a
  {
    if a != [] {
      BeforeOfPrefix(a[1..], rest);
      assert (a + rest)[1..] == a[1..] + rest;
      assert [a[0]] + a[1..] == a;
    } else {
      assert a + rest == rest;
    }
  }

  /** A two-word name "first last" gives the upper-cased first letters of
      both words. */
  lemma InitialsOfTwoWords(u: User, first: string, last: string)
    requires u.fullName == Some(first + " " + last)
    requires first != [] && last != [] && ' ' !in first && ' ' !in last
    requires !IsTrimmable(first[0])
    ensures u.Initials() == Ok([ToUpperChar(first[0]), ToUpperChar(last[0])])
  {
    var s := first + " " + last;
    assert s == first + [' '] + last;
    SplitPair(first, last, ' ');
    assert s[0] == first[0];
    TrimEmptyIff(s);
    assert !IsTrimmable(s[0]);
    assert NameUsable(u.fullName);
    var names := Split(s, ' ');
    assert names == [first, last];
    assert [first[0]] + last[..1] == [first[0], last[0]];
    assert ToUpper([first[0], last[0]]) == [ToUpperChar(first[0]), ToUpperChar(last[0])];
  }

  /** A name that starts with a space (and is not blank) makes getInitials
      fail: its first word is empty. */
  lemma InitialsLeadingSpaceFails(u: User)
    requires NameUsable(u.fullName) && u.fullName.value[0] == ' '
    ensures u.Initials() == Thrown(StringIndexOutOfBounds)
  {
    var s := u.fullName.value;
    SplitHead(s, ' ');
    TrimEmptyIff(s);
    var i :| 0 <= i < |s| && !IsTrimmable(s[i]);
    assert s[i] != ' ';
    assert Before(s, ' ') == [];
  }

  /** An email "local@domain" is professional exactly when its domain, in
      lower case, is not one of the free-mail domains. */
  lemma ProfessionalEmailByDomain(u: User, local: string, domain: string)
    requires u.email == Some(local + "@" + domain)
    requires '@' !in local && '@' !in domain && domain != []
    ensures u.HasProfessionalEmail() == Ok(ToLower(domain) !in FreeMailDomains)
  {
    var e := local + "@" + domain;
    assert e == local + ['@'] + domain;
    SplitPair(local, domain, '@');
    var d := ToLower(domain);
    ToLowerIdempotent(domain);
    forall k | 0 <= k < |FreeMailDomains|
      ensures EqualsIgnoreCase(FreeMailDomains[k], d) <==> FreeMailDomains[k] == d
    {
      ToLowerFixed(FreeMailDomains[k]);
    }
  }
}

=== FILE: user_address.dfy ===
/** UserAddressModel: a postal address of a user. */
module UserAddress {
  import opened JavaLang

  /** The format getFullAddress passes to String.format: six conversions. */
  const FullPattern: string := "%s, %s%s, %s %s, %s"

  /** The same format without the trailing ", %s": one conversion per argument. */
  const CorrectedPattern: string := "%s, %s%s, %s %s"

  const ShortPattern: string := "%s, %s"

  /** The cleanup replaceAll performs on the formatted address. */
  const EmptyField: string := ", , "
  const Separator: string := ", "

  /** The region argument of getFullAddress: ", " and the region when it is
      present and non-empty, nothing otherwise. */
  function RegionPart(region: Option<string>): (r: string)
    ensures region == None || region == Some([]) ==> r == []
    ensures region != None && region.value != [] ==> r == Separator + region.value
  {
    if region != None && region.value != [] then Separator + region.value else []
  }

  /** "%s, %s" formats to the two arguments joined by ", ". */
  lemma FormatShort(a: string, b: string)
    ensures Format(ShortPattern, [a, b]) == Ok(a + Separator + b)
  {
    var p1 := "%s" + [];
    var p0 := Separator + p1;
    assert ShortPattern == "%s" + p0;
    assert Format(p1, [b]) == Ok(b) by {
      assert Format([], []) == Ok([]);
      FormatConversion([], b, [], []);
      assert [b] + [] == [b] && b + [] == b;
    }
    assert Format(p0, [b]) == Ok(Separator + b) by {
      FormatText(Separator, p1, [b], b);
    }
    assert Format("%s" + p0, [a] + [b]) == Ok(a + (Separator + b)) by {
      FormatConversion(p0, a, [b], Separator + b);
    }
    assert [a] + [b] == [a, b];
    assert a + (Separator + b) == a + Separator + b;
  }

  /** "%s %s" formats to the two arguments joined by a space. */
  lemma FormatSpaced(d: string, e: string)
    ensures Format("%s %s", [d, e]) == Ok(d + (" " + e))
  {
    var p1 := "%s" + [];
    var p0 := " " + p1;
    assert "%s %s" == "%s" + p0;
    assert Format(p1, [e]) == Ok(e) by {
      assert Format([], []) == Ok([]);
      FormatConversion([], e, [], []);
      assert [e] + [] == [e] && e + [] == e;
    }
    assert Format(p0, [e]) == Ok(" " + e) by {
      FormatText(" ", p1, [e], e);
    }
    assert Format("%s" + p0, [d] + [e]) == Ok(d + (" " + e)) by {
      FormatConversion(p0, d, [e], " " + e);
    }
    assert [d] + [e] == [d, e];
  }

  /** "%s%s, %s %s" formats the four arguments in order. */
  lemma FormatFour(b: string, c: string, d: string, e: string)
    ensures Format("%s%s, %s %s", [b, c, d, e]) == Ok(b + (c + (Separator + (d + (" " + e)))))
  {
    var p2 := "%s %s";
    var p1 := Separator + p2;
    var p0 := "%s" + p1;
    var t2 := d + (" " + e);
    assert "%s%s, %s %s" == "%s" + p0;
    assert Format(p1, [d, e]) == Ok(Separator + t2) by {
      FormatSpaced(d, e);
      FormatText(Separator, p2, [d, e], t2);
    }
    assert Format(p0, [c, d, e]) == Ok(c + (Separator + t2)) by {
      FormatConversion(p1, c, [d, e], Separator + t2);
      assert [c] + [d, e] == [c, d, e];
    }
    assert Format("%s" + p0, [b] + [c, d, e]) == Ok(b + (c + (Separator + t2))) by {
      FormatConversion(p0, b, [c, d, e], c + (Separator + t2));
    }
    assert [b] + [c, d, e] == [b, c, d, e];
  }

  /** ", %s%s, %s %s" formats the four arguments in order after ", ". */
  lemma FormatSeparatedFour(b: string, c: string, d: string, e: string)
    ensures Format(Separator + "%s%s, %s %s", [b, c, d, e])
         == Ok(Separator + (b + (c + (Separator + (d + (" " + e))))))
  {
    FormatFour(b, c, d, e);
    FormatText(Separator, "%s%s, %s %s", [b, c, d, e], b + (c + (Separator + (d + (" " + e)))));
  }

  /** The corrected pattern formats the five arguments in order. */
  lemma FormatFive(a: string, b: string, c: string, d: string, e: string)
    ensures Format(CorrectedPattern, [a, b, c, d, e]) ==
      Ok(a + (Separator + (b + (c + (Separator + (d + (" " + e)))))))
  {
    var t := Separator + (b + (c + (Separator + (d + (" " + e)))));
    FormatSeparatedFour(b, c, d, e);
    FormatConversion(Separator + "%s%s, %s %s", a, [b, c, d, e], t);
    CorrectedPatternSplit(a, b, c, d, e, a + t);
  }

  /** The corrected pattern is a conversion followed by ", %s%s, %s %s". */
  lemma CorrectedPatternSplit(a: string, b: string, c: string, d: string, e: string, t: string)
    requires Format("%s" + (Separator + "%s%s, %s %s"), [a] + [b, c, d, e]) == Ok(t)
    ensures Format(CorrectedPattern, [a, b, c, d, e]) == Ok(t)
  {
    assert CorrectedPattern == "%s" + (Separator + "%s%s, %s %s");
    assert [a] + [b, c, d, e] == [a, b, c, d, e];
  }

  /** The format as written holds six conversions. */
  lemma FullPatternSpecifiers()
    ensures Specifiers(FullPattern) == 6
  {
    var p3 := "%s %s, %s";
    var p2 := Separator + p3;
    var p1 := "%s" + p2;
    var p0 := "%s" + p1;
    var pp := Separator + p0;
    assert FullPattern == "%s" + pp;
    assert Specifiers(p3) == 3 by {
      var q2 := "%s" + [];
      var q1 := Separator + q2;
      var q0 := "%s" + q1;
      var qq := " " + q0;
      assert p3 == "%s" + qq;
      assert Specifiers(q2) == 1 by { SpecifiersConversion([]); }
      assert Specifiers(q0) == 2 by {
        SpecifiersText(Separator, q2);
        SpecifiersConversion(q1);
      }
      assert Specifiers(p3) == 3 by {
        SpecifiersText(" ", q0);
        SpecifiersConversion(qq);
      }
    }
    assert Specifiers(p0) == 5 by {
      SpecifiersText(Separator, p3);
      SpecifiersConversion(p2);
      SpecifiersConversion(p1);
    }
    SpecifiersText(Separator, p0);
    SpecifiersConversion(pp);
  }

  class Address {
    var userId: Option<Uuid>
    var typeCode: Option<string>
    var street: Option<string>
    var city: Option<string>
    var region: Option<string>
    var postalCode: Option<string>
    var country: Option<string>
    var isDefault: Option<bool>
    var latitude: Option<real>
    var longitude: Option<real>

    /** new UserAddressModel(): every field null except isDefault, false. */
    constructor ()
      ensures userId == None && typeCode == None && street == None && city == None
      ensures region == None && postalCode == None && country == None
      ensures isDefault == Some(false) && latitude == None && longitude == None
      ensures !IsValid() && IsInternational()
    {
      userId := None;
      typeCode := None;
      street := None;
      city := None;
      region := None;
      postalCode := None;
      country := None;
      isDefault := Some(false);
      latitude := None;
      longitude := None;
    }

    /** The five arguments getFullAddress formats, as %s renders them. */
    function FullArgs(): (r: seq<string>)
      reads this
      ensures |r| == 5
    {
      [Render(street), Render(city), RegionPart(region), Render(postalCode), Render(country)]
    }

    /** getFullAddress as written: String.format on the six-conversion
        pattern, then the ", , " cleanup. */
    function FullAddress(): Result<string>
      reads this
    {
      match Format(FullPattern, FullArgs())
      case Ok(s) => Ok(ReplaceAll(s, EmptyField, Separator))
      case Thrown(e) => Thrown(e)
    }

    /** getFullAddress with five conversions for the five arguments: street,
        city, the optional region, then postal code and country, with the
        ", , " left by an empty field collapsed to ", ". */
    function FullAddressCorrected(): (r: string)
      reads this
      ensures var joined := Render(street) + (Separator + (Render(city) + (RegionPart(region)
        + (Separator + (Render(postalCode) + (" " + Render(country)))))));
        r == ReplaceAll(joined, EmptyField, Separator)
        && (!Contains(joined, EmptyField) ==> r == joined)
    {
      var args := FullArgs();
      FormatFive(args[0], args[1], args[2], args[3], args[4]);
      assert args == [args[0], args[1], args[2], args[3], args[4]];
      var joined := Format(CorrectedPattern, args).value;
      if !Contains(joined, EmptyField) then
        ReplaceAllAbsent(joined, EmptyField, Separator);
        ReplaceAll(joined, EmptyField, Separator)
      else
        ReplaceAll(joined, EmptyField, Separator)
    }

    /** setAsDefault: isDefault becomes true; nothing else changes. */
    method SetAsDefault()
      modifies this`isDefault
      ensures isDefault == Some(true)
    {
      isDefault := Some(true);
    }

    /** isValid: a user, a non-empty type, street, city and postal code, and a
        two-letter country code. */
    predicate IsValid()
      reads this
      ensures IsValid() ==>
        userId != None && typeCode != None && street != None && city != None && postalCode != None && country != None
      ensures IsValid() ==> |country.value| == 2 && |street.value| >= 1 && |city.value| >= 1
      ensures typeCode == Some([]) || street == Some([]) || city == Some([]) || postalCode == Some([]) ==> !IsValid()
      ensures (userId != None && typeCode != None && |typeCode.value| >= 1 && street != None && |street.value| >= 1
        && city != None && |city.value| >= 1 && postalCode != None && |postalCode.value| >= 1
        && country != None && |country.value| == 2) ==> IsValid()
    {
      userId != None
      && typeCode != None && typeCode.value != []
      && street != None && street.value != []
      && city != None && city.value != []
      && postalCode != None && postalCode.value != []
      && country != None && |country.value| == 2
    }

    /** isSimilarTo: false for null; otherwise street, city, region, postal
        code and country are pairwise equal (Objects.equals, so two nulls
        match). */
    predicate IsSimilarTo(other: Address?)
      reads this, other
      ensures other == this ==> IsSimilarTo(other)
      ensures IsSimilarTo(other) <==> (other != null && street == other.street && city == other.city
        && region == other.region && postalCode == other.postalCode && country == other.country)
    {
      other != null
      && street == other.street && city == other.city && region == other.region
      && postalCode == other.postalCode && country == other.country
    }

    /** getShortAddress: city and country joined by ", " (null printed as
        "null"). */
    function ShortAddress(): (r: string)
      reads this
      ensures r == Render(city) + Separator + Render(country)
    {
      FormatShort(Render(city), Render(country));
      Format(ShortPattern, [Render(city), Render(country)]).value
    }

    /** getFormattedType: "" for a null type; the first character kept and
        the rest lower-cased; charAt(0) throws on an empty type. */
    function FormattedType(): (r: Result<string>)
      reads this
      ensures typeCode == None ==> r == Ok([])
      ensures typeCode == Some([]) ==> r == Thrown(StringIndexOutOfBounds)
      ensures typeCode != None && typeCode.value != [] ==>
        r.Ok? && |r.value| == |typeCode.value| && r.value[0] == typeCode.value[0]
        && forall i :: 1 <= i < |r.value| ==> r.value[i] == ToLowerChar(typeCode.value[i])
    {
      match typeCode
      case None => Ok([])
      case Some(t) =>
        if t == [] then Thrown(StringIndexOutOfBounds)
        else Ok([t[0]] + ToLower(t[1..]))
    }

    /** isInternational: the country is not "FR" in any letter case; a null
        country counts as international. */
    predicate IsInternational()
      reads this
      ensures IsInternational() <==>
        !(country != None && |country.value| == 2
          && ToLowerChar(country.value[0]) == 'f' && ToLowerChar(country.value[1]) == 'r')
    {
      !(country != None && EqualsIgnoreCase("FR", country.value))
    }

    /** cloneAddress: a new address with the same user, type, street, city,
        region, postal code, country and default flag, and no coordinates. */
    method CloneAddress() returns (c: Address)
      ensures fresh(c)
      ensures c.userId == userId && c.typeCode == typeCode && c.isDefault == isDefault
      ensures c.street == street && c.city == city && c.region == region
      ensures c.postalCode == postalCode && c.country == country
      ensures c.latitude == None && c.longitude == None
      ensures c.IsSimilarTo(this) && IsSimilarTo(c)
      ensures c.IsValid() <==> IsValid()
    {
      c := new Address();
      c.userId := userId;
      c.typeCode := typeCode;
      c.street := street;
      c.city := city;
      c.region := region;
      c.postalCode := postalCode;
      c.country := country;
      c.isDefault := isDefault;
    }
  }

  /** Similarity is an equivalence on addresses: reflexive, symmetric and
      transitive. */
  lemma SimilarityIsEquivalence(a: Address, b: Address, c: Address)
    ensures a.IsSimilarTo(a)
    ensures a.IsSimilarTo(b) <==> b.IsSimilarTo(a)
    ensures a.IsSimilarTo(b) && b.IsSimilarTo(c) ==> a.IsSimilarTo(c)
    ensures !a.IsSimilarTo(null)
  {
  }

  /** getFullAddress as written throws MissingFormatArgumentException
      whatever the fields hold: the pattern has one conversion more than
      there are arguments, so the cleanup is never reached. */
  lemma FullAddressAlwaysThrows(a: Address)
    ensures a.FullAddress() == Thrown(MissingFormatArgument)
  {
    FullPatternSpecifiers();
    FormatFailsIff(FullPattern, a.FullArgs());
  }

  /** Formatting a non-empty type is idempotent: a formatted type formats to itself. */
  lemma FormattedTypeIdempotent(a: Address, b: Address)
    requires a.typeCode != None && a.typeCode.value != []
    requires b.typeCode == Some(a.FormattedType().value)
    ensures b.FormattedType() == a.FormattedType()
  {
    if a.typeCode != None && a.typeCode.value != [] {
      var f := a.FormattedType().value;
      var g := b.FormattedType().value;
      assert |g| == |f|;
      forall i | 0 <= i < |g| ensures g[i] == f[i] {
        if i > 0 {
          assert 'a' <= f[i] <= 'z' || f[i] < 'A' || 'Z' < f[i];
        }
      }
      assert g == f;
    }
  }
}

=== FILE: user_session.dfy ===
/** UserSessionModel: a login session, its expiry and the device it runs on. */
module UserSession {
  import opened JavaLang
  import opened Clock

  const Unknown: string := "Inconnu"
  const Mobile: string := "Mobile"
  const Tablet: string := "Tablette"
  const Computer: string := "Ordinateur"
  const Other: string := "Autre"

  /** The user-agent markers getDeviceType looks for. */
  const MobileMarker: string := "Mobile"
  const TabletMarker: string := "Tablet"
  const DesktopMarkers: seq<string> := ["Windows", "Macintosh", "Linux"]

  /** knownDevices.stream().noneMatch(device -> device.equals(userAgent)):
      the devices are visited in order until one equals the user agent; a
      null device reached before that throws. */
  function NoneEquals(devices: seq<Option<string>>, userAgent: string): (r: Result<bool>)
    ensures r.Thrown? ==> r.error == NullPointer
    ensures AllPresent(devices) ==> r == Ok(userAgent !in Values(devices))
    ensures Some(userAgent) in devices ==> r != Ok(true)
    ensures r == Ok(false) ==> Some(userAgent) in devices
    ensures r.Thrown? <==> exists k :: 0 <= k < |devices| && devices[k] == None && Some(userAgent) !in devices[..k]
  {
    if devices == [] then Ok(true)
    else match devices[0]
      case None => Thrown(NullPointer)
      case Some(d) =>
        if d == userAgent then Ok(false)
        else
          var rest := NoneEquals(devices[1..], userAgent);
          assert AllPresent(devices) ==> Values(devices) == [d] + Values(devices[1..]);
          assert devices == [devices[0]] + devices[1..];
          rest
  }

  class Session {
    var userId: Uuid
    var sessionToken: Option<string>
    var userAgent: Option<string>
    var expiresAt: Option<DateTime>
    var lastActivity: Option<DateTime>
    var isActive: Option<bool>

    /** new UserSessionModel(): active, with no expiry and no activity yet. */
    constructor (userId: Uuid, sessionToken: Option<string>, userAgent: Option<string>)
      ensures this.userId == userId && this.sessionToken == sessionToken && this.userAgent == userAgent
      ensures expiresAt == None && lastActivity == None && isActive == Some(true)
      ensures forall now :: IsValid(now)
    {
      this.userId := userId;
      this.sessionToken := sessionToken;
      this.userAgent := userAgent;
      expiresAt := None;
      lastActivity := None;
      isActive := Some(true);
    }

    /** isExpired: an expiry exists and now is strictly after it. */
    predicate IsExpired(now: DateTime)
      reads this
      ensures expiresAt == None ==> !IsExpired(now)
      ensures IsExpired(now) <==> expiresAt != None && expiresAt.value < now
    {
      expiresAt != None && now > expiresAt.value
    }

    /** isValid: active (Boolean.TRUE.equals) and not expired. */
    predicate IsValid(now: DateTime)
      reads this
      ensures isActive != Some(true) ==> !IsValid(now)
      ensures IsValid(now) <==> isActive == Some(true) && (expiresAt == None || now <= expiresAt.value)
    {
      isActive == Some(true) && !IsExpired(now)
    }

    /** updateLastActivity: the last activity becomes now. */
    method UpdateLastActivity(now: DateTime)
      modifies this`lastActivity
      ensures lastActivity == Some(now)
      ensures !IsInactiveTooLong(0, now)
    {
      lastActivity := Some(now);
    }

    /** invalidate: the session is no longer active, so no longer valid. */
    method Invalidate()
      modifies this`isActive
      ensures isActive == Some(false)
      ensures forall now :: !IsValid(now)
    {
      isActive := Some(false);
    }

    /** extendSession: a positive duration moves the expiry that many minutes
        later; plusMinutes on a null expiry throws; otherwise nothing
        changes. */
    method ExtendSession(durationMinutes: int) returns (c: Completion)
      modifies this`expiresAt
      ensures durationMinutes > 0 && old(expiresAt) == None <==> c == Abrupt(NullPointer)
      ensures c == Normal || c == Abrupt(NullPointer)
      ensures c == Normal && durationMinutes > 0 ==>
        expiresAt == Some(old(expiresAt).value + durationMinutes * SecondsPerMinute)
      ensures durationMinutes <= 0 || c != Normal ==> expiresAt == old(expiresAt)
      ensures c == Normal ==> forall now :: IsExpired(now) ==> old(IsExpired(now))
    {
      if durationMinutes > 0 {
        if expiresAt == None {
          return Abrupt(NullPointer);
        }
        expiresAt := Some(PlusMinutes(expiresAt.value, durationMinutes));
      }
      c := Normal;
    }

    /** getRemainingTimeMinutes: whole minutes from now to the expiry,
        truncated toward zero; null without an expiry. */
    function RemainingTimeMinutes(now: DateTime): (r: Option<int>)
      reads this
      ensures r == None <==> expiresAt == None
      ensures r != None ==> (r.value > 0 ==> !IsExpired(now)) && (IsExpired(now) ==> r.value <= 0)
      ensures r != None && now <= expiresAt.value ==>
        r.value * SecondsPerMinute <= expiresAt.value - now < (r.value + 1) * SecondsPerMinute
      ensures r != None && expiresAt.value <= now ==>
        (r.value - 1) * SecondsPerMinute < expiresAt.value - now <= r.value * SecondsPerMinute
    {
      if expiresAt == None then None else Some(MinutesBetween(now, expiresAt.value))
    }

    /** isInactiveTooLong: true without a recorded activity; otherwise the
        whole minutes since it exceed the maximum. */
    predicate IsInactiveTooLong(maxInactiveMinutes: int, now: DateTime)
      reads this
      ensures lastActivity == None ==> IsInactiveTooLong(maxInactiveMinutes, now)
      ensures lastActivity != None && lastActivity.value <= now ==>
        (IsInactiveTooLong(maxInactiveMinutes, now) <==>
          now - lastActivity.value >= (maxInactiveMinutes + 1) * SecondsPerMinute)
    {
      lastActivity == None || MinutesBetween(lastActivity.value, now) > maxInactiveMinutes
    }

    /** getDeviceType: the device class of the user agent, tested in the
        order Mobile, Tablet, then any of Windows, Macintosh and Linux. */
    function DeviceType(): (r: string)
      reads this
      ensures userAgent == None <==> r == Unknown
      ensures r == Mobile <==> (userAgent != None && Contains(userAgent.value, MobileMarker))
      ensures r == Tablet <==>
        (userAgent != None && !Contains(userAgent.value, MobileMarker)
         && Contains(userAgent.value, TabletMarker))
      ensures r == Computer <==>
        (userAgent != None && !Contains(userAgent.value, MobileMarker)
         && !Contains(userAgent.value, TabletMarker)
         && exists k :: 0 <= k < |DesktopMarkers| && Contains(userAgent.value, DesktopMarkers[k]))
      ensures r in [Unknown, Mobile, Tablet, Computer, Other]
    {
      match userAgent
      case None => Unknown
      case Some(ua) =>
        if Contains(ua, MobileMarker) then Mobile
        else if Contains(ua, TabletMarker) then Tablet
        else if Contains(ua, "Windows") || Contains(ua, "Macintosh") || Contains(ua, "Linux") then
          assert DesktopMarkers[0] == "Windows" && DesktopMarkers[1] == "Macintosh";
          assert DesktopMarkers[2] == "Linux";
          Computer
        else Other
    }

    /** isNewDevice: false when the user agent or the list is null; otherwise
        no known device equals the user agent. */
    function IsNewDevice(knownDevices: Option<seq<Option<string>>>): (r: Result<bool>)
      reads this
      ensures userAgent == None || knownDevices == None ==> r == Ok(false)
      ensures userAgent != None && knownDevices != None && AllPresent(knownDevices.value) ==>
        r == Ok(userAgent.value !in Values(knownDevices.value))
      ensures r.Thrown? ==> r.error == NullPointer
    {
      if userAgent == None || knownDevices == None then Ok(false)
      else NoneEquals(knownDevices.value, userAgent.value)
    }
  }
}

=== FILE: wishlist.dfy ===
/** WishlistModel: one product a user keeps on a wish list, with a priority
    from 1 (lowest) to 5 (highest) and free-text notes. */
module Wishlist {
  import opened JavaLang

  const MinPriority: int := 1
  const MaxPriority: int := 5

  /** The priority after increasePriority. */
  function Raised(priority: int): (r: int)
    ensures priority <= r <= priority + 1
    ensures r == priority <==> priority >= MaxPriority
  {
    if priority < MaxPriority then priority + 1 else priority
  }

  /** The priority after decreasePriority. */
  function Lowered(priority: int): (r: int)
    ensures priority - 1 <= r <= priority
    ensures r == priority <==> priority <= MinPriority
  {
    if priority > MinPriority then priority - 1 else priority
  }

  /** hasNotes on a notes value: present and not all trimmable characters. */
  predicate HasContent(notes: Option<string>)
  {
    notes != None && Trim(notes.value) != []
  }

  /** The notes stored by updateNotes: the trimmed text, or null when the
      text is null or trims to nothing. */
  function CleanNotes(newNotes: Option<string>): (r: Option<string>)
    ensures newNotes == None || Trim(newNotes.value) == [] ==> r == None
    ensures newNotes != None && Trim(newNotes.value) != [] ==> r == Some(Trim(newNotes.value))
    ensures r != None ==> Trim(r.value) == r.value
  {
    if newNotes == None || Trim(newNotes.value) == [] then None
    else
      TrimIdempotent(newNotes.value);
      Some(Trim(newNotes.value))
  }

  datatype PriorityChange = Increase | Decrease

  /** The priority after a sequence of changes. */
  function ApplyChanges(priority: int, changes: seq<PriorityChange>): int
    decreases |changes|
  {
    if changes == [] then priority
    else
      var p := if changes[0] == Increase then Raised(priority) else Lowered(priority);
      ApplyChanges(p, changes[1..])
  }

  /** From any priority in [1, 5], and so from the default 1, every sequence
      of increases and decreases stays in [1, 5]. */
  lemma {:induction false} ChangesStayInRange(priority: int, changes: seq<PriorityChange>)
    requires MinPriority <= priority <= MaxPriority
    ensures MinPriority <= ApplyChanges(priority, changes) <= MaxPriority
    decreases |changes|
  {
    if changes != [] {
      var p := if changes[0] == Increase then Raised(priority) else Lowered(priority);
      ChangesStayInRange(p, changes[1..]);
    }
  }

  /** An increase below the top is undone by a decrease, and a decrease above
      the bottom is undone by an increase. */
  lemma RaiseLowerRoundTrip(priority: int)
    requires MinPriority <= priority <= MaxPriority
    ensures priority < MaxPriority ==> Lowered(Raised(priority)) == priority
    ensures priority > MinPriority ==> Raised(Lowered(priority)) == priority
  {
  }

  /** After updateNotes, hasNotes holds exactly when the given text has a
      character beyond the trimmed ones; updating with the stored notes
      again changes nothing. */
  lemma {:induction false} CleanNotesContent(newNotes: Option<string>)
    ensures HasContent(CleanNotes(newNotes)) <==>
      newNotes != None && !AllTrimmable(newNotes.value)
    ensures CleanNotes(CleanNotes(newNotes)) == CleanNotes(newNotes)
  {
    if newNotes != None {
      TrimEmptyIff(newNotes.value);
      TrimIdempotent(newNotes.value);
    }
  }

  class Entry {
    var userId: Uuid
    var productId: Uuid
    var notes: Option<string>
    var priority: Option<int>

    /** A new entry has the lowest priority and no notes. */
    constructor (userId: Uuid, productId: Uuid)
      ensures this.userId == userId && this.productId == productId
      ensures notes == None && priority == Some(MinPriority)
      ensures IsHighPriority() == Ok(false) && !HasNotes()
    {
      this.userId := userId;
      this.productId := productId;
      notes := None;
      priority := Some(MinPriority);
    }

    /** isHighPriority: priority 4 or 5; the unboxing of a null priority
        throws. From the default priority it takes three increases to get
        there, and a high priority stays high when raised. */
    function IsHighPriority(): (r: Result<bool>)
      reads this
      ensures r.Thrown? <==> priority == None
      ensures r.Thrown? ==> r.error == NullPointer
      ensures r.Ok? ==> (r.value <==> priority.value >= 4)
      ensures r == Ok(true) ==> Raised(priority.value) >= 4
      ensures r.Ok? && MinPriority <= priority.value <= MaxPriority ==>
        (r.value <==> priority.value > MaxPriority - 2)
    {
      if priority == None then Thrown(NullPointer) else Ok(priority.value >= 4)
    }

    /** hasNotes: notes present with some character beyond the trimmable
        ones. */
    predicate HasNotes()
      reads this
      ensures HasNotes() <==> notes != None && !AllTrimmable(notes.value)
    {
      if notes == None then false
      else
        TrimEmptyIff(notes.value);
        HasContent(notes)
    }

    /** isForProduct: UUID equality, false for a null argument. */
    predicate IsForProduct(productId: Option<Uuid>)
      reads this
      ensures productId == None ==> !IsForProduct(productId)
      ensures IsForProduct(productId) <==> productId != None && productId.value == this.productId
    {
      productId == Some(this.productId)
    }

    /** isOwnedBy: UUID equality, false for a null argument. */
    predicate IsOwnedBy(userId: Option<Uuid>)
      reads this
      ensures userId == None ==> !IsOwnedBy(userId)
      ensures IsOwnedBy(userId) <==> userId != None && userId.value == this.userId
    {
      userId == Some(this.userId)
    }

    /** increasePriority: one step up, never past 5; the unboxing of a null
        priority throws and changes nothing. */
    method IncreasePriority() returns (c: Completion)
      modifies this`priority
      ensures old(priority) == None ==> c == Abrupt(NullPointer) && priority == None
      ensures old(priority) != None ==> c == Normal && priority == Some(Raised(old(priority).value))
      ensures old(priority) != None && MinPriority <= old(priority).value <= MaxPriority ==>
        MinPriority <= priority.value <= MaxPriority
    {
      if priority == None {
        return Abrupt(NullPointer);
      }
      if priority.value < MaxPriority {
        priority := Some(priority.value + 1);
      }
      c := Normal;
    }

    /** decreasePriority: one step down, never below 1; the unboxing of a null
        priority throws and changes nothing. */
    method DecreasePriority() returns (c: Completion)
      modifies this`priority
      ensures old(priority) == None ==> c == Abrupt(NullPointer) && priority == None
      ensures old(priority) != None ==> c == Normal && priority == Some(Lowered(old(priority).value))
      ensures old(priority) != None && MinPriority <= old(priority).value <= MaxPriority ==>
        MinPriority <= priority.value <= MaxPriority
    {
      if priority == None {
        return Abrupt(NullPointer);
      }
      if priority.value > MinPriority {
        priority := Some(priority.value - 1);
      }
      c := Normal;
    }

    /** updateNotes. */
    method UpdateNotes(newNotes: Option<string>)
      modifies this`notes
      ensures notes == CleanNotes(newNotes)
      ensures HasNotes() <==> newNotes != None && Trim(newNotes.value) != []
    {
      notes := if newNotes != None && Trim(newNotes.value) != [] then Some(Trim(newNotes.value)) else None;
    }
  }
}
